=== FILE: README.md ===
# calendrical-JS core: ExtDate, ExtDateTimeFormat and the custom calendar model

This project models, in Dafny, the date and formatting core of the
calendrical-JS library. It has three parts.

- **Custom calendar model** (`calendar_model.dfy`). A calendar is a record of
  descriptive properties and conversion functions:
  - the descriptive properties are `id`, `canvas`, `pldr`, `eras`,
    `stringFormat` and `partsFormat`;
  - the conversion functions are `fieldsFromCounter`, `counterFromFields`,
    `weekFieldsFromCounter`, `counterFromWeekFields`, `solveAskedFields` and
    `inLeapYear`.

  The obligations documented for a calendar are the predicate `Conforms`:
  1-based month, year equal to fullYear without an era, week year equal to
  fullYear plus `weekYearOffset`, and weekdays in 0..6 or 1..7. The round
  trip `counterFromFields(fieldsFromCounter(t)) == t` is the separate
  hypothesis `RoundTrips`. Neither is proved for any particular calendar.
- **ExtDate** (`ext_date.dfy`). A time counter bound to either a built-in
  calendar ("iso8601", "gregory") or a custom one. The model covers:
  - constructor argument validation and default fields;
  - the built-in era/year mapping;
  - the zone offset;
  - the field getters;
  - the setters `setFromFields`, `setFromWeekFields` and `setFullTime`.

  The counter is a field of the `ExtDate` class, which the setters update.
- **ExtDateTimeFormat** (`ext_date_time_format.dfy`, with the option records
  in `format_options.dfy`). The model covers:
  - option resolution at construction: default fields, `eraDisplay` and
    `stringFormat` checks, the `timeStyle`/`dateStyle` shorthands, the
    2-digit cascade, month and weekday contexts and widths (in the terms of
    Unicode Technical Standard #35, Part 4: Dates), and canvas rejection;
  - the `displayEra` policy;
  - the `formatToParts` pipeline: the per-field `partsFormat` dispatch
    (`cldr`, `field`, `list`, `pldr`), the width correction of numeric
    fields, and the suppression of an era that is not shown;
  - `format`, which concatenates the parts.

The platform services are injected records of functions that the model uses
but does not define:
- the Gregorian arithmetic of `Date` in UTC and in the local zone, named
  zones, "now" and `Date.parse` (`Platform.Clock`);
- the standard locale database `Intl.DateTimeFormat`/`Intl.NumberFormat`
  (`LocaleDatabase.Intl`);
- the private locale data repository (`CalendarModel.Pldr`), a lookup by
  query with a language-specific answer that wins when it is not empty.

Building a time value from in-range UTC coordinates is assumed to give
them back (`Platform.SoundUtc`). No such assumption is made for the local
zone: a daylight saving gap skips wall-clock times, so the lemmas about
local times say when the requested coordinates exist
(`Platform.LocalExists`).

Exceptions are the `Failure` arm of a `Result`, carrying `RangeError` or
`TypeError` as the source throws them. JavaScript's `undefined` is `None`,
or the absence of a key in an options map. An undefined array element
concatenated into text is the string "undefined".

Where the source mutates state, the model is imperative:
- the constructors' option records are rewritten step by step by methods
  (`ResolveEarly`, `FinishInPlace`, `Construct`);
- the constructor fills the date fields in a loop (`FieldsFromArguments`);
- `formatToParts` passes over the parts in loops and splices them
  (`DispatchInPlace`, `CorrectWidthsInPlace`, `SpliceEra`, `FormatToParts`).

Each of these methods is proved equal to a specification function. The
properties are then proved about those functions.

Where the code and the written design disagree, the model follows the code:
- `getWeekFields` on a custom calendar without `weekFieldsFromCounter`
  throws a `TypeError` (the missing function is called), not a dedicated
  "capability not supported" error;
- `inLeapYear` without the calendar function throws a `RangeError`.

## Model

| member | source | states |
|---|---|---|
| Base.Language | extdatetimeformat.js:109 | the language subtag: a prefix of the locale with no "-", which is the whole locale or is followed by its first "-" |
| CalendarModel.NumericFields | extdate.js:109-110 | seven distinct field names in argument order, defaulting to fullYear 0, month 1, day 1 and 0 for the time of day |
| CalendarModel.NumericWeekFields | extdate.js:116-117 | weekYear 0, weekNumber 1, weekday 1, then the same time fields as the date list |
| CalendarModel.NumericMap | customcalendarmodel.js:38-39 | the object handed to counterFromFields holds exactly the first n numeric field names, each with the field's value |
| CalendarModel.FieldsIdentifyCounter | customcalendarmodel.js:32-39 | under the round trip, two counters with the same numeric fields are the same counter |
| CalendarModel.WeekdayInRange | customcalendarmodel.js:45 | a conforming calendar's weekday is in 0..6 or in 1..7, after its own numbering |
| CalendarModel.WeekYearFromFullYear | customcalendarmodel.js:42-43 | week year minus weekYearOffset is the civil full year |
| FormatOptions.DefaultFields | extdatetimeformat.js:66-76 | with no field and no style asked, year, month and day become "numeric" and no other key is added; otherwise the options are unchanged |
| FormatOptions.CopyResolved | extdatetimeformat.js:85-90 | the six options resolved by the standard database are copied over, an absent one removing the key; all other options are untouched |
| FormatOptions.EraDisplayOf | extdatetimeformat.js:93-100 | eraDisplay defaults to "auto"; a value outside never/always/auto is a RangeError; "auto" (asked or defaulted) becomes "never" exactly when the database resolved no year, and stays "auto" otherwise; an explicit never/always is kept |
| FormatOptions.ExpandTimeStyle | extdatetimeformat.js:116-126 | hour and minute become "2-digit"; second is "2-digit" except for "short"; the zone name is dropped for short/medium, "long" for full, "short" otherwise; timeStyle and fractionalSecondDigits are removed; every other key is kept |
| FormatOptions.ExpandDateStyle | extdatetimeformat.js:127-137 | year "numeric"; day "2-digit" for short, else numeric; month 2-digit/long/short by style; weekday "long" only for full; dateStyle removed; other keys kept |
| FormatOptions.Cascade | extdatetimeformat.js:139-141 | the three 2-digit rules applied in order, including a 2-digit hour reaching a present second through the minute; the key set is unchanged |
| FormatOptions.MonthContext | extdatetimeformat.js:143-144 | "stand-alone" exactly when neither day nor year is shown |
| FormatOptions.MonthWidth | extdatetimeformat.js:145-153 | a width exactly when a month is asked: numeric for numeric and 2-digit, narrow for narrow, abbreviated for short, wide for long, and "" for any other month option |
| FormatOptions.DayContext | extdatetimeformat.js:155 | "stand-alone" exactly when no day, month or year is shown |
| FormatOptions.DayContextImpliesMonthContext | extdatetimeformat.js:143-155 | a stand-alone weekday implies a stand-alone month |
| FormatOptions.ExpandShorthands | extdatetimeformat.js:115-141 | after both expansions and the cascade, no shorthand key is left; a timeStyle shows hour and minute in 2 digits; a dateStyle shows a numeric year, a day and a month; options no step touches are kept |
| ExtDates.CalendarOf | extdate.js:71-79 | undefined means iso8601; only "iso8601" and "gregory" are accepted names (RangeError otherwise); any object is a custom calendar; any other value is a TypeError |
| ExtDates.GregoryEraYear | extdate.js:206-207 | ERA0 exactly for fullYear ≤ 0, with year 1 − fullYear; ERA1 with year = fullYear otherwise; the displayed year is always ≥ 1 |
| ExtDates.GregoryEraYearInjective | extdate.js:206-207 | the era/year pair determines the full year |
| ExtDates.BuiltInFields | extdate.js:193-208 | fields of a built-in calendar are the UTC coordinates with a 1-based month; iso8601 has no era and year = fullYear; gregory uses the era mapping |
| ExtDates.TZmsOffset | extdate.js:141-158 | "UTC" gives 0; "" gives the counter minus the local coordinates read as UTC; a named zone gives the counter minus its resolved local counter |
| ExtDates.ResolvedLocalCounter | extdate.js:164-183 | "UTC" leaves the counter unchanged; for a named zone the shift is exactly the offset getRealTZmsOffset reports |
| ExtDates.LocalOffsetKeepsWallClock | extdate.js:38-48 | the counter shifted by the environment's offset carries the local wall-clock coordinates exactly, milliseconds included, on any platform whose accessors report in-range coordinates (zones with daylight saving included) |
| ExtDates.ArgumentFields | extdate.js:87-94 | a TypeError exactly when a supplied argument is not an integer; otherwise all seven fields, supplied or defaulted |
| ExtDates.FieldsFromArguments | extdate.js:88-94 | the constructor's loop gives the same result, stopping at the first non-integer argument |
| ExtDates.BuiltInCounter | extdate.js:81-84 | the corrected counter of a built-in calendar date; non-integer arguments are handled as the code does |
| ExtDates.BuiltInCounterAsWritten | extdate.js:81-84 | the constructor as written: a year outside 0..99 is taken literally; a year y in 0..99 is built as 1900 + y in local time and then set back to y |
| ExtDates.BuiltInCounterTakesFieldsLiterally | extdate.js:81-84 | the corrected counter reads back exactly the requested local coordinates (1-based month, any year) if and only if that wall-clock time exists in the zone, i.e. is not in a daylight saving gap |
| ExtDates.BuiltInCounterAgreesWhen19xxExists | extdate.js:81-84 | the constructor as written agrees with the corrected one whenever the local date and time also exist in year 1900 + y |
| ExtDates.BuiltInCounterShiftedWhere19xxMoves | extdate.js:81-84 | where the platform moves the date or time of day of year 1900 + y (a missing 29 February, a daylight saving gap), the constructor as written keeps the moved coordinates in year y and differs from the corrected counter, which gives the requested ones |
| ExtDates.BuiltInLeapDayOfYearZeroShifted | extdate.js:81-84 | the constructor as written turns 29 February of year 0 into 1 March; the corrected one keeps 29 February |
| ExtDates.BuiltInDaylightGapOfYear75Shifted | extdate.js:81-84 | in a zone whose clocks jumped from 02:00 to 03:00 on 23 February 1975, the constructor as written gives 03:30 for 02:30 on 23 February of year 75; the corrected one gives 02:30 |
| ExtDates.FullUtc | extdate.js:130-135 | the UTC counter whose coordinates are exactly the arguments (month 1-based, later fields defaulted), the year taken literally |
| ExtDates.FullUtcAsWritten | extdate.js:130-135 | fullUTC as written: a year outside 0..99 is taken literally; a year y in 0..99 is built as 1900 + y in UTC and then set back to y |
| ExtDates.FullUtcTakesYearLiterally | extdate.js:130-135 | fullUTC as written equals the corrected counter whenever the date also exists in year 1900 + y |
| ExtDates.FullUtcLeapDayOfYearZeroShifted | extdate.js:130-135 | fullUTC as written gives 1 March of year 0 for 29 February of year 0; the corrected one gives 29 February |
| ExtDates.CreationCounter | extdate.js:70-100 | calendar errors are propagated; after a valid calendar, a TypeError exactly for several numeric arguments to a custom calendar, one of them not an integer; otherwise a string gives Date.parse, no argument gives now, one integer gives that counter, a custom calendar gives counterFromFields shifted by the local offset, a built-in calendar the (corrected) built-in counter |
| ExtDates.CreatedFieldsReadBack | extdate.js:86-97 | fields given to a custom calendar at construction are read back by getFields in the environment's zone, when the calendar is consistent on them |
| ExtDates.MergeProperties | extdate.js:252-253 | Object.assign of the asked fields: nothing asked changes nothing; merging twice is merging once; supplying every field gives those fields |
| ExtDates.Merge | extdate.js:252-253 | each supplied field replaces the current one and each field not supplied is kept |
| ExtDates.MergeWeek | extdate.js:276-277 | each supplied week field replaces the current one and each field not supplied is kept |
| ExtDates.WeekDateOf | extdate.js:283 | counterFromWeekFields receives exactly weekYear, weekNumber and weekday |
| ExtDates.FullTime | extdate.js:426-437 | a TypeError exactly when hours are missing or NaN; a RangeError exactly for a zone other than "" and "UTC"; in UTC, the new time of day with omitted parts kept |
| ExtDates.FullTimeUtcSetsTime | extdate.js:426-437 | in UTC the date is kept, the given time parts are set and the omitted ones keep their values |
| ExtDates.FullTimeLocalSetsTime | extdate.js:426-437 | in the environment's zone the local date is kept and the asked time of day set, omitted parts keeping their values, exactly when that wall-clock time exists in the zone; a time in a daylight saving gap is moved |
| ExtDates.ExtDate.Init | extdate.js:101 | the date stores its clock, its calendar and its counter |
| ExtDates.ExtDate.Create | extdate.js:70-101 | succeeds exactly when the creation counter exists; a new date with that counter and the validated calendar, or the same error |
| ExtDates.ExtDate.RealTZmsOffset | extdate.js:141-143 | the offset at the current counter is 0 in UTC |
| ExtDates.ExtDate.GetFields | extdate.js:188-217 | a custom calendar yields fieldsFromCounter(counter − offset); a built-in one the era rules on the UTC coordinates of counter − offset, which in the environment's zone are its local wall-clock coordinates; under the round trip the fields give back the shifted counter; built-in coordinates are in range |
| ExtDates.ExtDate.GetWeekFields | extdate.js:238-242 | a RangeError for built-in calendars, a TypeError without the calendar function; otherwise weekFieldsFromCounter(counter − offset), at the same shifted counter as getFields, with weekYear = fullYear + weekYearOffset for a conforming calendar |
| ExtDates.ExtDate.InLeapYear | extdate.js:292-295 | a RangeError exactly when the calendar provides no inLeapYear; otherwise its answer on the current fields |
| ExtDates.ExtDate.FullYear | extdate.js:318-321 | for gregory, the full year recovered from era and year |
| ExtDates.ExtDate.Era | extdate.js:326-329 | none for iso8601; ERA0 or ERA1 for gregory |
| ExtDates.ExtDate.Year | extdate.js:334-337 | without an era, the full year (iso8601 and conforming custom calendars); at least 1 for gregory |
| ExtDates.ExtDate.Month | extdate.js:342-345 | at least 1 for a conforming calendar; 1..12 for a built-in one |
| ExtDates.ExtDate.Day | extdate.js:350-353 | 1..31 for a built-in calendar |
| ExtDates.ExtDate.Hours | extdate.js:390-393 | 0..23 for a built-in calendar |
| ExtDates.ExtDate.Minutes | extdate.js:398-401 | 0..59 for a built-in calendar |
| ExtDates.ExtDate.Seconds | extdate.js:406-409 | 0..59 for a built-in calendar |
| ExtDates.ExtDate.Milliseconds | extdate.js:414-417 | 0..999 for a built-in calendar |
| ExtDates.ExtDate.Weekday | extdate.js:358-361 | defined exactly when the week fields are; for a conforming calendar, within 0..6 when its weekdays count from 0 and within 1..7 when they count from 1 |
| ExtDates.ExtDate.WeekNumber | extdate.js:366-369 | defined exactly when the week fields are; a RangeError for built-in calendars |
| ExtDates.ExtDate.WeeksInYear | extdate.js:374-377 | defined exactly when the week fields are; a RangeError for built-in calendars |
| ExtDates.ExtDate.WeekYear | extdate.js:382-385 | for a conforming calendar, the full year plus the week-year offset |
| ExtDates.ExtDate.SetFullTime | extdate.js:426-437 | the counter becomes the FullTime result, or is unchanged on an error |
| ExtDates.ExtDate.SetFromFields | extdate.js:249-267 | a TypeError for built-in calendars with the counter unchanged; otherwise the asked fields are merged over the current ones, only fullYear/month/day go to counterFromFields, then the merged time of day is applied in the zone |
| ExtDates.ExtDate.SetFromWeekFields | extdate.js:273-287 | the same with weekYear/weekNumber/weekday through counterFromWeekFields, keeping the current time of day; errors of the week functions are propagated |
| ExtDateTimeFormats.CheckStringFormat | extdatetimeformat.js:101-107 | a RangeError exactly for a custom calendar whose stringFormat is known to be outside built-in/fields/auto; otherwise the calendar with stringFormat defaulted to "auto" |
| ExtDateTimeFormats.CanvasError | extdatetimeformat.js:156-165 | a RangeError exactly for "fields" on a canvas outside the Roman ones, or for a chinese/dangi/hebraic canvas |
| ExtDateTimeFormats.ResolvedDtf | extdatetimeformat.js:77-84 | the first resolution is kept when the calendar option already matches it |
| ExtDateTimeFormats.EarlyOptions | extdatetimeformat.js:59-90 | locale and calendar come from the resolution (the canvas wins); every option that is not database-resolved is the caller's, after the default fields |
| ExtDateTimeFormats.ResolveEarly | extdatetimeformat.js:59-90 | the constructor's assignments give EarlyOptions and the resolved database options |
| ExtDateTimeFormats.CopyResolvedInPlace | extdatetimeformat.js:85-90 | the six assignments give CopyResolved |
| ExtDateTimeFormats.ResolveEraDisplay | extdatetimeformat.js:93-100 | the fall-through switch gives EraDisplayOf |
| ExtDateTimeFormats.ResolveStringFormat | extdatetimeformat.js:101-107 | the defaulting and switch give CheckStringFormat |
| ExtDateTimeFormats.CheckCanvas | extdatetimeformat.js:156-165 | the two switches give CanvasError |
| ExtDateTimeFormats.FinishInPlace | extdatetimeformat.js:92-165 | the second half of the constructor, done step by step |
| ExtDateTimeFormats.Construct | extdatetimeformat.js:58-166 | the whole constructor |
| ExtDateTimeFormats.Finish | extdatetimeformat.js:92-165 | the constructor's later steps: on success the stored options are the early ones with eraDisplay resolved and both shorthands expanded and cascaded; the formatter stores the resolved locale and its language, the calendar with stringFormat checked and defaulted, the database's resolution, and month and weekday contexts and month width that agree with its options |
| ExtDateTimeFormats.Resolve | extdatetimeformat.js:58-166 | the constructor: on success the stored options are the early options with eraDisplay resolved and the shorthands expanded, the locale is the early resolved one, the language is its first subtag, and a calendar is kept exactly when a custom one was given |
| ExtDateTimeFormats.FinishErrors | extdatetimeformat.js:93-165 | construction ends in a RangeError exactly for a bad eraDisplay, a bad stringFormat, or a refused canvas once the locale is resolved; a TypeError only without a resolved locale |
| ExtDateTimeFormats.ConstructionErrors | extdatetimeformat.js:58-166 | the same in terms of the caller's options and calendar argument |
| ExtDateTimeFormats.ResolvedOptionsWellFormed | extdatetimeformat.js:93-137 | a constructed formatter has no shorthand key left, the resolved eraDisplay, the resolved locale, and lang = the locale's language |
| ExtDateTimeFormats.ResolvedContextsAgree | extdatetimeformat.js:143-155 | a month width exactly when a month is shown; a stand-alone weekday context implies a stand-alone month context |
| ExtDateTimeFormats.ResolvedCalendarChecked | extdatetimeformat.js:101-107 | a constructed formatter's calendar has a known stringFormat, no lunisolar canvas, and a Roman canvas under "fields" |
| ExtDateTimeFormats.FinishKeepsFields | extdatetimeformat.js:115-141 | without shorthands, the resolved options are the early ones with eraDisplay resolved and the cascade applied |
| ExtDateTimeFormats.EarlyOptionsOfNothingAsked | extdatetimeformat.js:66-90 | with no field asked (a calendar option allowed), the early options show year, month and day as numbers and nothing else |
| ExtDateTimeFormats.NothingAskedGivesNumericDate | extdatetimeformat.js:66-76 | with no field asked (a calendar option allowed), a constructed formatter shows numeric year, month and day, and no weekday, time or era |
| ExtDateTimeFormats.WeekdayKey | extdatetimeformat.js:177 | a three-letter key exactly for 0..6, "sun" first and "sat" last |
| ExtDateTimeFormats.FirstOfKind | extdatetimeformat.js:429 | findIndex: the first part of the kind, or −1 when there is none |
| ExtDateTimeFormats.DisplayEra | extdatetimeformat.js:188-212 | never: hidden; always: shown unless a custom calendar has no eras; auto: shown only when a year or era is asked and eras exist |
| ExtDateTimeFormats.BuiltInEra | extdatetimeformat.js:198-206 | the era of a built-in calendar date: none exactly when the probe (numeric year, short era) has no era part, otherwise the value of its first era part |
| ExtDateTimeFormats.CustomEra | extdatetimeformat.js:208-210 | the era of a custom calendar date: its fields' era at the counter itself in UTC and at the counter shifted by the zone offset in a named zone |
| ExtDateTimeFormats.AutoHidesCurrentEra | extdatetimeformat.js:193-210 | in "auto" mode a date in the same era as now hides its era, and so does now itself |
| ExtDateTimeFormats.AutoShowsOtherEra | extdatetimeformat.js:193-210 | in "auto" mode, with a year or era asked and a calendar that has eras, a date whose era differs from now's shows its era |
| ExtDateTimeFormats.BagOf | extdatetimeformat.js:296-302 | the calendar's fields of the date, with week fields exactly when the calendar has them |
| ExtDateTimeFormats.BagText | extdatetimeformat.js:338-339 | "field" mode inserts the raw field named like the part: the era code or "", the month number, the weekday number or "" without week fields; "" for any other part |
| ExtDateTimeFormats.YearText | extdatetimeformat.js:326-333 | "2-digit": a quote and two digits for a positive year, the whole year in one digit at least otherwise; "numeric": the whole year; any other option leaves the part as it is |
| ExtDateTimeFormats.DayText | extdatetimeformat.js:334-337 | "2-digit": the day in two digits; "numeric": in one digit at least; any other option leaves the part as it is |
| ExtDateTimeFormats.ListText | extdatetimeformat.js:341-351 | era names through the codes; a month asked "2-digit"/"numeric" is the numeral, otherwise the name by 1-based position; the weekday name by 1-based position, undefined without week fields or out of range; other parts unchanged |
| ExtDateTimeFormats.ListEraByPosition | extdatetimeformat.js:342 | an era coded at position i is shown with the name at position i |
| ExtDateTimeFormats.PldrFetch | extdatetimeformat.js:219-276 | the language-specific answer when it is not empty, else the international one; a TypeError without a repository |
| ExtDateTimeFormats.EraSelector | extdatetimeformat.js:223-227 | the LDML era width: eraNames for long, eraAbbr for short, eraNarrow for narrow, and "" exactly for any other option |
| ExtDateTimeFormats.DaySelector | extdatetimeformat.js:257-261 | the LDML day width: wide for long; for short, abbreviated in the format context and short in stand-alone; for narrow, short in the format context and narrow in stand-alone; "" for any other option |
| ExtDateTimeFormats.PldrMonth | extdatetimeformat.js:239-255 | the repository's month name, or the month number (2 digits for "2-digit") when none is found |
| ExtDateTimeFormats.PldrText | extdatetimeformat.js:352-406 | era: a TypeError without eras, else fetched by the era's index among the calendar's eras; year and day as in "field" mode; month from PldrMonth; weekday fetched with the context's width and key, a TypeError without a repository; a numeric hour/minute/second throws; an unknown field is a RangeError |
| ExtDateTimeFormats.FormatPart | extdatetimeformat.js:322-409 | a part without a partsFormat, in "cldr" mode or an unknown mode is kept; "field" renders the year, the day or the raw field; "list" the list renderer; "pldr" the repository renderer, the only one that can throw |
| ExtDateTimeFormats.PldrWeekdayUsesCalendarKey | extdatetimeformat.js:373-376 | with the calendar's own key function, the repository is asked with that key for the weekday |
| ExtDateTimeFormats.Dispatch | extdatetimeformat.js:320-410 | every part keeps its kind and gets its rendered value; otherwise the error of the first part that throws |
| ExtDateTimeFormats.DispatchInPlace | extdatetimeformat.js:320-410 | the forEach that overwrites the values in place gives Dispatch |
| ExtDateTimeFormats.AfterNeighbour | extdatetimeformat.js:417-423 | the part after a numeric hour, minute or second is the only one that changes, whatever its kind: ":"/"." become " h "/" min ", and " " after a second becomes " s " |
| ExtDateTimeFormats.Renumbered | extdatetimeformat.js:415-416 | a numeric-asked part whose text is a number takes that number in one digit at least; any other part keeps its value |
| ExtDateTimeFormats.SecondSuffix | extdatetimeformat.js:421-422 | " s" is appended exactly when a numeric second ends the parts |
| ExtDateTimeFormats.CorrectWidths | extdatetimeformat.js:411-426 | right-to-left locales are untouched; otherwise kinds are kept, each value is corrected from itself and the part before it, and at most the " s" suffix is added |
| ExtDateTimeFormats.CorrectWidthsInPlace | extdatetimeformat.js:413-426 | the in-place forEach, which does not visit the pushed part, gives CorrectWidths |
| ExtDateTimeFormats.RightToLeft | extdatetimeformat.js:413 | a locale is written right to left exactly when its first two characters are ar, fa, he, ji, ug, ur or yi |
| ExtDateTimeFormats.WidthCorrectionLiterals | extdatetimeformat.js:419-420 | the ":" or "." after a numeric hour or minute becomes " h " or " min " |
| ExtDateTimeFormats.CorrectWidthsKeepsEras | extdatetimeformat.js:411-426 | the width correction neither adds nor removes an era part |
| ExtDateTimeFormats.SuppressEra | extdatetimeformat.js:428-435 | without an era part nothing changes; it fails (reading a missing neighbour) exactly when the era is the only part |
| ExtDateTimeFormats.SuppressEraProperties | extdatetimeformat.js:428-435 | the first era goes; its neighbour (before it, or after it when the era is first) goes too exactly when it is a literal; parts before the pair are kept in place and parts after it follow in order; era count −1, literal count −1 exactly for a literal neighbour |
| ExtDateTimeFormats.SuppressEraKeepsLast | extdatetimeformat.js:428-435 | the last part survives suppression when neither it nor the part before it is an era |
| ExtDateTimeFormats.SuppressEraRemovesTheEra | extdatetimeformat.js:428-435 | with at most one era part, none is left |
| ExtDateTimeFormats.SpliceEra | extdatetimeformat.js:428-435 | the splice gives SuppressEra |
| ExtDateTimeFormats.CallOptions | extdatetimeformat.js:285-288 | a hidden era removes the era option; a shown era keeps the asked one or becomes "short"; every other option is kept |
| ExtDateTimeFormats.SetFirst | extdatetimeformat.js:311-315 | the first part of the kind, when there is one, gets the new value; every other part is unchanged |
| ExtDateTimeFormats.FieldsParts | extdatetimeformat.js:303-319 | the "fields" canvas can fail only when a zone name must be set |
| ExtDateTimeFormats.FirstPassOf | extdatetimeformat.js:281-319 | the date's fields exist exactly for a custom calendar and come from the counter shifted to the zone of the call options; outside "fields" mode the parts are the database's formatToParts of the date with the call options, which stay in force; in "fields" mode the zone becomes UTC, and only that mode can fail |
| ExtDateTimeFormats.FormatToParts | extdatetimeformat.js:281-437 | the method, with its in-place passes, gives the parts of the pipeline |
| ExtDateTimeFormats.Parts | extdatetimeformat.js:281-437 | formatToParts: a failure of the first pass or of rendering is a failure, and otherwise it fails exactly when the era is hidden and the corrected parts are a lone era; the parts other than eras and literals are the width-corrected rendering in order; the width correction keeps every era, and era suppression removes exactly one when the era is hidden and there is one |
| ExtDateTimeFormats.HiddenEraIsRemoved | extdatetimeformat.js:285-287 | a hidden era is gone from the final parts when the database gave at most one era part |
| ExtDateTimeFormats.Format | extdatetimeformat.js:442-445 | format succeeds exactly when formatToParts does; the text of every leading run of parts is a prefix of the result, and the lengths agree, so the text is the values in order |
| ExtDateTimeFormats.FormatEndsWithSecondSuffix | extdatetimeformat.js:411-445 | in a left-to-right locale, when a numeric second ends the rendered parts, formatToParts ends with the literal " s" and format's text ends with " s", the era being suppressed or not |
| ExtDateTimeFormats.AutoStringFormatIsBuiltIn | customcalendarmodel.js:16-20 | a custom calendar's stringFormat "auto" gives the same parts as "built-in" for every date |

## Left out

- fetchdom.js: network I/O and asynchrony.
- The real behaviour of `Intl.DateTimeFormat` and `Intl.NumberFormat`:
  first-pass parts, `resolvedOptions`, numerals. These are foreign library
  calls, injected as `LocaleDatabase.Intl`. Errors the database raises for
  an invalid locale or option are not modelled.
- The Gregorian arithmetic and the local and named zones behind `Date`
  (`Platform.Clock`). This includes the en-GB parsing in
  `toResolvedLocalDate` (extdate.js:164-183), which is `Clock.zoneTime`.
- The XPath evaluation of `pldrFetch`: it is an abstract lookup by query.
- ExtDateTimeFormats.PldrText: the "numeric" hour/minute/second branch
  (extdatetimeformat.js:377-403) is modelled only as the TypeError that
  reading `tparts[-1].value` throws, because `indexOf` with a predicate
  finds nothing. Its intended output is not modelled.
- `getISOFields`: it subtracts from the method `this.valueOf` instead of
  calling it, so it always yields NaN fields.
- `toCalString`: number formatting by the locale database.
- `dateFieldNames` and `resolvedOptions()`: a constant list nothing else
  uses, and the formatter's `options` field itself.
- The fullYear/era/year functions listed at customcalendarmodel.js:53-55 are
  not part of the calendar record. ExtDate never calls them. Which eras of a
  custom calendar are regressive is not described, so the rule "zero or
  negative fullYear in a regressive era" is proved only for the built-in
  gregory calendar (`ExtDates.GregoryEraYear`).
- Line extdatetimeformat.js:95 writes `era` into the caller's options
  object, not into the formatter's copy. It has no effect on the model.
- Line extdatetimeformat.js:102 stores the defaulted `stringFormat` into the
  caller's calendar object. The model keeps the defaulted calendar in the
  formatter and does not model the change being seen through other
  references to that object.
- A calendar function that throws is not modelled. `weekFieldsFromCounter`
  is either present or absent, so the `try`/`catch` at
  extdatetimeformat.js:298-301 only covers absence.
- Counters are unbounded integers. The ±8.64e15 ms range of `Date` and NaN
  counters are not modelled. Non-integer arguments of the legacy `Date`
  constructor go to the injected `Clock.looseDate`.
- `TZ` undefined is modelled as "". The test `TZ == (undefined || "")` at
  extdate.js:167 only matches "", which gives the same result.
- ExtDates.CreationCounter: for a built-in calendar and several numbers it
  uses the corrected `BuiltInCounter`, not the constructor as written
  (`BuiltInCounterAsWritten`). The two differ on the dates and times listed
  under "## Findings", such as `new ExtDate("iso8601", 0, 2, 29)`, which the
  code makes 1 March of year 0.
- ExtDates.ExtDate.Create: stores the same corrected counter, for the same
  reason.
- ExtDates.Merge: `Object.assign` also copies a key supplied with the value
  undefined, which then replaces the current field with undefined. The
  model treats such a key as not supplied.
- ExtDates.MergeWeek: the same holds for setFromWeekFields'
  `Object.assign(weekFields, myFields)` (extdate.js:276): a week key supplied
  with the value undefined is treated as not supplied.
- ExtDateTimeFormats.ListText: an index out of the list reads undefined, and
  the code stores that undefined as the part's value. The model stores the
  text "undefined", which is what concatenation into `format`'s text makes
  of it; formatToParts' value itself is not undefined in the model.
- ExtDateTimeFormats.FieldsParts: only its failure condition is stated. The
  parts it builds depend on the injected database.

## Findings

| source | as written | input that shows it | evidently intended | confidence | as-written member | corrected member |
|---|---|---|---|---|---|---|
| extdate.js:81-84 | the legacy Date is built with a year in 0..99 read as 19xx, then the year is set back to the argument | `new ExtDate("iso8601", 0, 2, 29)`: 29 February 1900 does not exist and becomes 1 March, so the date is 1 March of year 0 | the year taken literally from the start, giving 29 February of year 0 (a leap year) | not executed | ExtDates.BuiltInLeapDayOfYearZeroShifted | ExtDates.BuiltInCounterTakesFieldsLiterally |
| extdate.js:81-84 | the same 19xx detour for the time of day: the legacy Date is built in year 1900 + y, where the platform may move a time that falls in a daylight saving gap, and setFullYear keeps the moved time | `new ExtDate("iso8601", 75, 2, 23, 2, 30)` in a zone whose clocks went from 02:00 to 03:00 on 23 February 1975 (America/New_York): 1975-02-23 02:30 becomes 03:30, which is kept in year 75 | 02:30 on 23 February of year 75, where that time exists | not executed | ExtDates.BuiltInDaylightGapOfYear75Shifted | ExtDates.BuiltInCounterTakesFieldsLiterally |
| extdate.js:130-135 | `Date.UTC` reads a year in 0..99 as 19xx, then `setUTCFullYear` sets the year back | `ExtDate.fullUTC(0, 2, 29)` gives 1 March of year 0 | 29 February of year 0 | not executed | ExtDates.FullUtcLeapDayOfYearZeroShifted | ExtDates.FullUtc |

=== FILE: base.dfy ===
/** Small building blocks shared by the calendar, date and formatter modules:
    optional values, results carrying the JavaScript exception that the
    source would throw, JavaScript numbers as far as the core inspects them,
    and the string helpers the core relies on. */
module Base {

  datatype Option<+T> = None | Some(value: T) {
    function GetOr(default: T): T {
      match this
      case Some(v) => v
      case None => default
    }
  }

  /** The two exception classes the core throws. */
  datatype Error = RangeError(why: string) | TypeError(why: string)

  datatype Result<+R> = Success(value: R) | Failure(error: Error) {
    predicate IsFailure() { Failure? }
    function PropagateFailure<U>(): Result<U>
      requires Failure?
    {
      Failure(error)
    }
    function Extract(): R
      requires Success?
    {
      value
    }
  }

  /** A JavaScript number as the core looks at it: an integer, a finite
      value with a fractional part, or NaN. */
  datatype Number = Integer(value: int) | Fractional(r: real) | NaN {
    /** Number.isInteger */
    predicate IsInteger() { Integer? }
  }

  /** Truncation toward zero, the ToIntegerOrInfinity step of the platform. */
  function Trunc(r: real): (n: int)
    ensures n as real <= r < n as real + 1.0 || n as real - 1.0 < r <= n as real
    ensures (r >= 0.0 ==> n >= 0) && (r < 0.0 ==> n <= 0)
  {
    if r >= 0.0 then r.Floor else -((-r).Floor)
  }

  /** Array.prototype.indexOf: the first index holding x, or -1. */
  function IndexOf<T(==)>(s: seq<T>, x: T): (i: int)
    ensures -1 <= i < |s|
    ensures i >= 0 ==> s[i] == x && forall j :: 0 <= j < i ==> s[j] != x
    ensures i == -1 <==> x !in s
  {
    if |s| == 0 then -1
    else if s[0] == x then 0
    else var k := IndexOf(s[1..], x); if k == -1 then -1 else k + 1
  }

  /** Reading s[i] in JavaScript: undefined outside the array. */
  function At<T>(s: seq<T>, i: int): (r: Option<T>)
    ensures r.Some? <==> 0 <= i < |s|
    ensures r.Some? ==> r.value == s[i]
  {
    if 0 <= i < |s| then Some(s[i]) else None
  }

  /** How JavaScript turns an undefined array element into text when it is
      concatenated into a string. */
  function TextOr(v: Option<string>): string {
    v.GetOr("undefined")
  }

  /** The decimal digits of a natural number (String(n) in JavaScript). */
  function NatToString(n: nat): (s: string)
    ensures |s| >= 1
    ensures forall k :: 0 <= k < |s| ==> '0' <= s[k] <= '9'
    decreases n
  {
    var d := ['0' + (n % 10) as char];
    if n < 10 then d else NatToString(n / 10) + d
  }

  /** String(n) for an integer: a minus sign before the digits of |n|. */
  function IntToString(n: int): (s: string)
    ensures |s| >= 1
    ensures (s[0] == '-') <==> n < 0
  {
    if n < 0 then "-" + NatToString(-n) else NatToString(n)
  }

  /** s starts with p (String.prototype.startsWith). */
  predicate StartsWith(s: string, p: string) {
    |p| <= |s| && s[..|p|] == p
  }

  /** String.prototype.substring(0, n) with JavaScript's clamping. */
  function Prefix(s: string, n: nat): (r: string)
    ensures |r| == if n <= |s| then n else |s|
    ensures StartsWith(s, r)
  {
    if n <= |s| then s[..n] else s
  }

  /** The part of a locale tag before its first '-', or the whole tag. */
  function Language(locale: string): (r: string)
    ensures StartsWith(locale, r)
    ensures '-' !in r
    ensures r == locale || (|r| < |locale| && locale[|r|] == '-')
  {
    if |locale| == 0 then ""
    else if locale[0] == '-' then ""
    else [locale[0]] + Language(locale[1..])
  }
}

=== FILE: calendar_model.dfy ===
/** The contract every custom calendar must satisfy to be used by ExtDate and
    ExtDateTimeFormat. A calendar is a record of descriptive properties and
    conversion functions between a time counter (milliseconds, deemed UTC)
    and calendar fields; optional capabilities are Option-valued. The
    documented obligations are the ghost predicate Conforms, and the
    conversion round trip is the separate hypothesis RoundTrips: neither is
    proved for any particular calendar. */
module CalendarModel {
  import opened Base

  /** The fields fieldsFromCounter yields: the numeric fields (month
      1-based), the era code if the calendar has eras, and the year as
      displayed with that era. */
  datatype Fields = Fields(
    fullYear: int, month: int, day: int,
    hours: int, minutes: int, seconds: int, milliseconds: int,
    era: Option<string>, year: int)

  /** A set of fields given by a caller: absent ones are None. */
  datatype PartialFields = PartialFields(
    fullYear: Option<int>, month: Option<int>, day: Option<int>,
    hours: Option<int>, minutes: Option<int>, seconds: Option<int>,
    milliseconds: Option<int>, era: Option<string>, year: Option<int>)

  /** The week coordinates weekFieldsFromCounter yields. */
  datatype WeekFields = WeekFields(
    weekYearOffset: int, weekYear: int, weekNumber: int,
    weekday: int, weeksInYear: int)

  datatype PartialWeekFields = PartialWeekFields(
    weekYearOffset: Option<int>, weekYear: Option<int>,
    weekNumber: Option<int>, weekday: Option<int>,
    weeksInYear: Option<int>)

  /** The only entries counterFromWeekFields needs. */
  datatype WeekDate = WeekDate(weekYear: int, weekNumber: int, weekday: int)

  /** One question to a private locale data repository: the calendar id,
      the field's context and width (LDML names), and the key. */
  datatype PldrQuery =
    | EraQuery(calendar: string, width: string, index: int)
    | MonthQuery(calendar: string, context: string, width: string, month: int)
    | DayQuery(calendar: string, context: string, width: string, key: string)

  /** A private locale data repository: an international answer and a
      language-specific answer; "" means that nothing was found. */
  datatype Pldr = Pldr(
    international: PldrQuery -> string,
    languageSpecific: (string, PldrQuery) -> string)

  /** How a part naming a date field is rendered: mode is one of "cldr",
      "field", "list" or "pldr"; source and codes serve "list"; key maps the
      weekday field (undefined when the calendar has no week fields) to its
      repository key in "pldr" mode. */
  datatype PartFormat = PartFormat(
    mode: string, source: seq<string>, codes: seq<string>,
    key: Option<Option<int> -> string>)

  datatype Calendar = Calendar(
    id: string,
    canvas: Option<string>,
    pldr: Option<Pldr>,
    eras: Option<seq<string>>,
    stringFormat: Option<string>,
    partsFormat: map<string, PartFormat>,
    fieldsFromCounter: int -> Fields,
    counterFromFields: map<string, int> -> int,
    weekFieldsFromCounter: Option<int -> WeekFields>,
    counterFromWeekFields: Option<WeekDate -> int>,
    solveAskedFields: PartialFields -> PartialFields,
    inLeapYear: Option<Fields -> bool>)

  /** One entry of the numeric field lists: a field name and its default. */
  datatype NamedDefault = NamedDefault(name: string, value: int)

  /** The numeric date fields, in argument order, with their defaults. */
  function NumericFields(): (r: seq<NamedDefault>)
    ensures |r| == 7
    ensures forall i, j :: 0 <= i < j < 7 ==> r[i].name != r[j].name
    ensures r[0] == NamedDefault("fullYear", 0) && r[1] == NamedDefault("month", 1)
    ensures r[2] == NamedDefault("day", 1)
    ensures forall i :: 3 <= i < 7 ==> r[i].value == 0
  {
    [NamedDefault("fullYear", 0), NamedDefault("month", 1), NamedDefault("day", 1),
     NamedDefault("hours", 0), NamedDefault("minutes", 0), NamedDefault("seconds", 0),
     NamedDefault("milliseconds", 0)]
  }

  /** The numeric week fields, in argument order, with their defaults. */
  function NumericWeekFields(): (r: seq<NamedDefault>)
    ensures |r| == 7
    ensures forall i, j :: 0 <= i < j < 7 ==> r[i].name != r[j].name
    ensures r[0] == NamedDefault("weekYear", 0) && r[1] == NamedDefault("weekNumber", 1)
    ensures r[2] == NamedDefault("weekday", 1)
    ensures forall i :: 3 <= i < 7 ==> r[i] == NumericFields()[i]
  {
    [NamedDefault("weekYear", 0), NamedDefault("weekNumber", 1), NamedDefault("weekday", 1),
     NamedDefault("hours", 0), NamedDefault("minutes", 0), NamedDefault("seconds", 0),
     NamedDefault("milliseconds", 0)]
  }

  /** fields[name] for a numeric field name. */
  function NumericValue(f: Fields, name: string): int {
    match name
    case "fullYear" => f.fullYear
    case "month" => f.month
    case "day" => f.day
    case "hours" => f.hours
    case "minutes" => f.minutes
    case "seconds" => f.seconds
    case _ => f.milliseconds
  }

  /** The numeric fields of f among the first n of NumericFields, as the
      object a caller hands to counterFromFields. */
  function NumericMap(f: Fields, n: nat): (m: map<string, int>)
    requires n <= 7
    ensures m.Keys == set i | 0 <= i < n :: NumericFields()[i].name
    ensures forall i :: 0 <= i < n ==> m[NumericFields()[i].name] == NumericValue(f, NumericFields()[i].name)
  {
    map i | 0 <= i < n :: NumericFields()[i].name := NumericValue(f, NumericFields()[i].name)
  }

  /** The obligations the calendar model documents for fieldsFromCounter
      and weekFieldsFromCounter. */
  ghost predicate Conforms(c: Calendar) {
    // month is 1-based
    && (forall t :: c.fieldsFromCounter(t).month >= 1)
    // without an era, the displayed year is the full year
    && (forall t :: c.fieldsFromCounter(t).era.None? ==>
                      c.fieldsFromCounter(t).year == c.fieldsFromCounter(t).fullYear)
    // the week year is the civil full year shifted by weekYearOffset
    && (c.weekFieldsFromCounter.Some? ==>
          forall t :: c.weekFieldsFromCounter.value(t).weekYear ==
                        c.fieldsFromCounter(t).fullYear + c.weekFieldsFromCounter.value(t).weekYearOffset)
    // weekdays run 0..6 (Sunday first) or 1..7, as the calendar defines
    && (c.weekFieldsFromCounter.Some? ==> WeekdayBase(c) in {0, 1})
  }

  /** The weekday numbering of a calendar with week fields: b when every
      weekday lies in b..b+6 for b in {0, 1}, -1 otherwise. */
  ghost function WeekdayBase(c: Calendar): int
    requires c.weekFieldsFromCounter.Some?
  {
    var w := c.weekFieldsFromCounter.value;
    if forall t :: 0 <= w(t).weekday <= 6 then 0
    else if forall t :: 1 <= w(t).weekday <= 7 then 1
    else -1
  }

  /** The conversion round trip: the numeric fields of a counter give the
      counter back. */
  ghost predicate RoundTrips(c: Calendar) {
    forall t :: c.counterFromFields(NumericMap(c.fieldsFromCounter(t), 7)) == t
  }

  /** Under the round trip, distinct counters never share their fields: the
      fields identify the instant. */
  lemma FieldsIdentifyCounter(c: Calendar, t1: int, t2: int)
    requires RoundTrips(c)
    requires NumericMap(c.fieldsFromCounter(t1), 7) == NumericMap(c.fieldsFromCounter(t2), 7)
    ensures t1 == t2
  {
    assert c.counterFromFields(NumericMap(c.fieldsFromCounter(t1), 7)) == t1;
    assert c.counterFromFields(NumericMap(c.fieldsFromCounter(t2), 7)) == t2;
  }

  /** The weekday of a conforming calendar lies in 0..6 or in 1..7. */
  lemma WeekdayInRange(c: Calendar, t: int)
    requires Conforms(c) && c.weekFieldsFromCounter.Some?
    ensures var d := c.weekFieldsFromCounter.value(t).weekday;
            (WeekdayBase(c) == 0 && 0 <= d <= 6) || (WeekdayBase(c) == 1 && 1 <= d <= 7)
  {
    var w := c.weekFieldsFromCounter.value;
    if WeekdayBase(c) == 0 {
      assert forall u :: 0 <= w(u).weekday <= 6;
    } else {
      assert forall u :: 1 <= w(u).weekday <= 7;
    }
  }

  /** The week year of a conforming calendar differs from the full year by
      the week-year offset. */
  lemma WeekYearFromFullYear(c: Calendar, t: int)
    requires Conforms(c) && c.weekFieldsFromCounter.Some?
    ensures c.weekFieldsFromCounter.value(t).weekYear - c.weekFieldsFromCounter.value(t).weekYearOffset
            == c.fieldsFromCounter(t).fullYear
  {
  }

  /** The string-format modes a calendar may declare; "auto" means
      "built-in". */
  predicate KnownStringFormat(s: string) {
    s in {"built-in", "fields", "auto"}
  }

  /** The part-format modes a calendar may declare. */
  predicate KnownPartsMode(m: string) {
    m in {"cldr", "field", "list", "pldr"}
  }
}

=== FILE: ext_date.dfy ===
/** ExtDate: a time counter bound to a calendar, either one of the built-in
    calendars "iso8601" and "gregory" or a custom calendar model. Field
    access runs the calendar on the counter shifted by the zone offset;
    the setters merge new fields over the current ones and recompute the
    counter through the calendar, then re-apply the time of day. The
    platform's Gregorian arithmetic is the injected Clock. */
module ExtDates {
  import opened Base
  import opened Platform
  import opened CalendarModel

  /** The calendar argument of the constructor, by JavaScript type. */
  datatype CalendarArg =
    | Undefined              // undefined or null
    | Name(name: string)     // a string
    | Object(cal: Calendar)  // a custom calendar object
    | OtherValue             // a number, a boolean, ...

  /** The calendar an ExtDate is bound to. */
  datatype CalendarRef = Iso8601 | Gregory | Custom(cal: Calendar)

  /** The date arguments after the calendar: one date string, or numbers
      (none: now; one: a counter; several: date fields). */
  datatype DateArgs = Text(text: string) | Numbers(numbers: seq<Number>)

  /** Calendar argument validation: undefined means "iso8601", the only
      names accepted are "iso8601" and "gregory", any object is accepted
      as a custom calendar, and any other value is a type error. */
  function CalendarOf(arg: CalendarArg): (r: Result<CalendarRef>)
    ensures arg.Undefined? ==> r.Success? && r.value.Iso8601?
    ensures arg.Name? ==> (r.Success? <==> arg.name in {"iso8601", "gregory"})
    ensures arg.Name? && r.Success? ==> (r.value.Gregory? <==> arg.name == "gregory") && !r.value.Custom?
    ensures arg.Name? && r.Failure? ==> r.error.RangeError?
    ensures arg.Object? ==> r.Success? && r.value.Custom?
    ensures arg.OtherValue? ==> r.Failure? && r.error.TypeError?
  {
    match arg
    case Undefined => Success(Iso8601)
    case Name(n) =>
      if n == "iso8601" then Success(Iso8601)
      else if n == "gregory" then Success(Gregory)
      else Failure(RangeError("only iso8601 and gregory built-in calendars"))
    case Object(c) => Success(Custom(c))
    case OtherValue => Failure(TypeError("calendar is neither a string nor an object"))
  }

  /** The built-in "gregory" era and displayed year of a full year: years
      up to 0 belong to the regressive era ERA0 and are counted backwards
      from 1. */
  function GregoryEraYear(fullYear: int): (r: (string, int))
    ensures r.0 in {"ERA0", "ERA1"}
    ensures r.0 == "ERA0" <==> fullYear <= 0
    ensures r.1 >= 1
    ensures fullYear == if r.0 == "ERA0" then 1 - r.1 else r.1
  {
    if fullYear <= 0 then ("ERA0", 1 - fullYear) else ("ERA1", fullYear)
  }

  /** The Gregorian era/year pair determines the full year: the mapping is
      one to one. */
  lemma GregoryEraYearInjective(y1: int, y2: int)
    requires GregoryEraYear(y1) == GregoryEraYear(y2)
    ensures y1 == y2
  {
    var r1, r2 := GregoryEraYear(y1), GregoryEraYear(y2);
    assert y1 == if r1.0 == "ERA0" then 1 - r1.1 else r1.1;
    assert y2 == if r2.0 == "ERA0" then 1 - r2.1 else r2.1;
  }

  /** Fields of a built-in calendar from UTC Gregorian coordinates: month
      made 1-based, era and year per calendar. */
  function BuiltInFields(gregory: bool, g: Civil): (f: Fields)
    ensures f.fullYear == g.year && f.month == g.month + 1 && f.day == g.date
    ensures f.hours == g.hours && f.minutes == g.minutes && f.seconds == g.seconds && f.milliseconds == g.ms
    ensures !gregory ==> f.era.None? && f.year == f.fullYear
    ensures gregory ==> f.era == Some(GregoryEraYear(g.year).0) && f.year == GregoryEraYear(g.year).1
  {
    var base := Fields(g.year, g.month + 1, g.date, g.hours, g.minutes, g.seconds, g.ms, None, g.year);
    if gregory then
      var (era, year) := GregoryEraYear(g.year);
      base.(era := Some(era), year := year)
    else base
  }

  /** The fields of a zone-shifted counter under a calendar. */
  function FieldsAt(k: Clock, cal: CalendarRef, t: int): Fields {
    match cal
    case Custom(c) => c.fieldsFromCounter(t)
    case Iso8601 => BuiltInFields(false, k.utcCivil(t))
    case Gregory => BuiltInFields(true, k.utcCivil(t))
  }

  /** getRealTZmsOffset: UTC minus local time in milliseconds. "UTC" gives
      0; "" (or undefined) is the environment's zone, computed by reading
      the local coordinates back as UTC coordinates; any other name goes
      through the named-zone service. */
  function TZmsOffset(k: Clock, tz: string, t: int): (off: int)
    ensures tz == "UTC" ==> off == 0
    ensures tz == "" ==> t - off == k.utcTime(k.localCivil(t))
    ensures tz != "UTC" && tz != "" ==> t - off == k.zoneTime(tz, t)
  {
    if tz == "UTC" then 0
    else if tz == "" then t - k.utcTime(k.localCivil(t))
    else t - k.zoneTime(tz, t)
  }

  /** toResolvedLocalDate(TZ).valueOf(): the wall-clock time in the zone
      read as a UTC counter; "UTC" leaves the counter as it is, and "" (or
      undefined) asks the standard database for the environment's zone. For
      a named zone the counter is shifted by exactly the offset
      getRealTZmsOffset reports. */
  function ResolvedLocalCounter(k: Clock, tz: string, t: int): (r: int)
    ensures tz == "UTC" ==> r == t
    ensures tz != "UTC" && tz != "" ==> r == t - TZmsOffset(k, tz, t)
  {
    if tz == "UTC" then t else k.zoneTime(tz, t)
  }

  /** With the environment's offset taken from whole coordinates, the
      shifted counter carries the local wall-clock coordinates exactly,
      seconds and milliseconds included. */
  lemma LocalOffsetKeepsWallClock(k: Clock, t: int)
    requires SoundUtc(k) && SoundLocal(k)
    ensures k.utcCivil(t - TZmsOffset(k, "", t)) == k.localCivil(t)
  {
    assert InRange(k.localCivil(t));
  }

  /** The value of the i-th date argument, or the field's default. */
  function ArgOrDefault(ns: seq<Number>, i: nat): int
    requires i < 7
  {
    if i < |ns| && ns[i].Integer? then ns[i].value else NumericFields()[i].value
  }

  predicate AllIntegerArgs(ns: seq<Number>) {
    forall i :: 0 <= i < |ns| && i < 7 ==> ns[i].Integer?
  }

  /** The first n numeric fields, from the arguments or their defaults. */
  function FieldMap(ns: seq<Number>, n: nat): map<string, int>
    requires n <= 7
  {
    map j | 0 <= j < n :: NumericFields()[j].name := ArgOrDefault(ns, j)
  }

  /** Adding the next field name to the map extends it by one entry. */
  lemma FieldMapStep(ns: seq<Number>, i: nat)
    requires i < 7
    ensures FieldMap(ns, i + 1) == FieldMap(ns, i)[NumericFields()[i].name := ArgOrDefault(ns, i)]
  {
    var names := NumericFields();
    var a, b := FieldMap(ns, i + 1), FieldMap(ns, i)[names[i].name := ArgOrDefault(ns, i)];
    assert a.Keys == b.Keys;
    forall key | key in a.Keys
      ensures a[key] == b[key]
    {
      var j :| 0 <= j < i + 1 && names[j].name == key;
      if j < i {
        assert names[j].name != names[i].name;
      }
    }
  }

  /** The fields a custom calendar receives from several numeric
      arguments: each supplied one must be an integer, omitted ones take
      their defaults (fullYear 0, month 1, day 1, time 0). */
  function ArgumentFields(ns: seq<Number>): (r: Result<map<string, int>>)
    ensures r.Failure? <==> !AllIntegerArgs(ns)
    ensures r.Failure? ==> r.error.TypeError?
    ensures r.Success? ==> r.value.Keys == set i | 0 <= i < 7 :: NumericFields()[i].name
    ensures r.Success? ==> forall i :: 0 <= i < 7 ==>
              r.value[NumericFields()[i].name] == if i < |ns| then ns[i].value else NumericFields()[i].value
  {
    if !AllIntegerArgs(ns) then Failure(TypeError("argument is not integer"))
    else
      var m := FieldMap(ns, 7);
      assert forall i :: 0 <= i < 7 ==> m[NumericFields()[i].name] == ArgOrDefault(ns, i) by {
        forall i | 0 <= i < 7
          ensures m[NumericFields()[i].name] == ArgOrDefault(ns, i)
        {
          var j :| 0 <= j < 7 && NumericFields()[j].name == NumericFields()[i].name && m[NumericFields()[i].name] == ArgOrDefault(ns, j);
          assert i == j;
        }
      }
      Success(m)
  }

  /** The constructor's loop over the numeric fields: it stops at the first
      supplied argument that is not an integer. */
  method FieldsFromArguments(ns: seq<Number>) returns (r: Result<map<string, int>>)
    ensures r == ArgumentFields(ns)
  {
    var names := NumericFields();
    var fields: map<string, int> := map[];
    for i := 0 to 7
      invariant fields == FieldMap(ns, i)
      invariant forall j :: 0 <= j < i && j < |ns| ==> ns[j].Integer?
    {
      FieldMapStep(ns, i);
      if i < |ns| {
        if !ns[i].IsInteger() {
          return Failure(TypeError("argument is not integer"));
        }
        fields := fields[names[i].name := ns[i].value];
      } else {
        fields := fields[names[i].name := names[i].value];
      }
    }
    r := Success(fields);
  }

  /** The number one less: the month argument made 0-based. */
  function Decrement(n: Number): Number {
    match n
    case Integer(v) => Integer(v - 1)
    case Fractional(x) => Fractional(x - 1.0)
    case NaN => NaN
  }

  /** Gregorian coordinates from integer date arguments (year, 0-based
      month, then day, hours, minutes, seconds, milliseconds defaulting to
      1, 0, 0, 0, 0). */
  function CivilOfArgs(ns: seq<Number>): Civil
    requires |ns| >= 2 && AllIntegerArgs(ns)
  {
    Civil(ns[0].value, ns[1].value,
          if |ns| > 2 then ns[2].value else 1,
          if |ns| > 3 then ns[3].value else 0,
          if |ns| > 4 then ns[4].value else 0,
          if |ns| > 5 then ns[5].value else 0,
          if |ns| > 6 then ns[6].value else 0)
  }

  /** A first argument in [0, 100), which the legacy Date reads as 19xx. */
  predicate TwoDigitYear(n: Number) {
    match n
    case Integer(v) => 0 <= v < 100
    case Fractional(x) => 0.0 <= x < 100.0
    case NaN => false
  }

  function YearValue(n: Number): int
    requires TwoDigitYear(n)
  {
    match n
    case Integer(v) => v
    case Fractional(x) => Trunc(x)
  }

  /** The counter of a built-in calendar date given as several numbers,
      as the constructor computes it: month decremented, the legacy Date
      built (a year in 0..99 read as 19xx), then the year set again to the
      argument when it lies in [0, 100). */
  function BuiltInCounterAsWritten(k: Clock, ns: seq<Number>): (t: int)
    requires |ns| >= 2
    ensures AllIntegerArgs(ns) && !(0 <= ns[0].value < 100) ==>
              t == k.localTime(CivilOfArgs(ns[1 := Decrement(ns[1])]))
    ensures AllIntegerArgs(ns) && 0 <= ns[0].value < 100 ==>
              var c := CivilOfArgs(ns[1 := Decrement(ns[1])]);
              t == SetFullYearLocal(k, k.localTime(c.(year := 1900 + c.year)), c.year)
  {
    var a := ns[1 := Decrement(ns[1])];
    var t0 := if AllIntegerArgs(a) then k.localTime(CivilOfArgs(a).(year := LegacyYear(a[0].value)))
              else k.looseDate(a);
    if TwoDigitYear(a[0]) then SetFullYearLocal(k, t0, YearValue(a[0])) else t0
  }

  /** The same counter with the year taken literally from the start, so
      that the day is never normalised in the wrong year. */
  function BuiltInCounter(k: Clock, ns: seq<Number>): (t: int)
    requires |ns| >= 2
    ensures !AllIntegerArgs(ns) ==> t == BuiltInCounterAsWritten(k, ns)
  {
    var a := ns[1 := Decrement(ns[1])];
    if AllIntegerArgs(a) then k.localTime(CivilOfArgs(a))
    else BuiltInCounterAsWritten(k, ns)
  }

  /** The corrected constructor takes integer fields literally, whatever
      the year: the local wall clock reads the given date and time back
      exactly when they exist in the environment's zone (they do not in a
      daylight saving gap, where the platform moves them). */
  lemma BuiltInCounterTakesFieldsLiterally(k: Clock, ns: seq<Number>)
    requires |ns| >= 2 && AllIntegerArgs(ns)
    ensures var c := CivilOfArgs(ns[1 := Decrement(ns[1])]);
            && c.year == ns[0].value && c.month == ns[1].value - 1
            && (k.localCivil(BuiltInCounter(k, ns)) == c <==> LocalExists(k, c))
  {
    var a := ns[1 := Decrement(ns[1])];
    assert AllIntegerArgs(a);
  }

  /** Where the local date and time also exist in year 1900 + y, the
      constructor as written agrees with the corrected one: setting the
      year back only goes wrong when the platform had to move a date or
      time missing from 19xx. */
  lemma BuiltInCounterAgreesWhen19xxExists(k: Clock, ns: seq<Number>)
    requires |ns| >= 2 && AllIntegerArgs(ns)
    requires var c := CivilOfArgs(ns[1 := Decrement(ns[1])]);
             LocalExists(k, c.(year := LegacyYear(c.year)))
    ensures BuiltInCounterAsWritten(k, ns) == BuiltInCounter(k, ns)
  {
    var a := ns[1 := Decrement(ns[1])];
    assert AllIntegerArgs(a);
    var c := CivilOfArgs(a);
    var t0 := k.localTime(c.(year := LegacyYear(c.year)));
    if TwoDigitYear(a[0]) {
      assert k.localCivil(t0).(year := a[0].value) == c;
    }
  }

  /** Where the platform moves the date or time of day of year 1900 + y
      (a 29 February missing from 19xx, a time in a daylight saving gap of
      19xx), the constructor as written keeps the moved date and time in
      year y, while the corrected one gives the requested coordinates. */
  lemma BuiltInCounterShiftedWhere19xxMoves(k: Clock, ns: seq<Number>)
    requires |ns| >= 2 && AllIntegerArgs(ns)
    requires var c := CivilOfArgs(ns[1 := Decrement(ns[1])]);
             var c19 := c.(year := 1900 + c.year);
             var moved := k.localCivil(k.localTime(c19));
             && 0 <= c.year < 100 && LocalExists(k, c)
             && moved.(year := c19.year) != c19
             && LocalExists(k, moved.(year := c.year))
    ensures var c := CivilOfArgs(ns[1 := Decrement(ns[1])]);
            && k.localCivil(BuiltInCounter(k, ns)) == c
            && k.localCivil(BuiltInCounterAsWritten(k, ns)) != c
            && BuiltInCounterAsWritten(k, ns) != BuiltInCounter(k, ns)
  {
    var a := ns[1 := Decrement(ns[1])];
    assert AllIntegerArgs(a);
    var c := CivilOfArgs(a);
    var c19 := c.(year := 1900 + c.year);
    var moved := k.localCivil(k.localTime(c19));
    assert TwoDigitYear(a[0]) && YearValue(a[0]) == c.year;
    assert k.localCivil(BuiltInCounterAsWritten(k, ns)) == moved.(year := c.year);
    assert moved.(year := c.year).(year := c19.year) == moved.(year := c19.year);
  }

  /** The constructor as written moves 29 February of year 0 to 1 March:
      the legacy Date builds 29 February 1900, which does not exist and is
      normalised to 1 March 1900, before the year is set back to 0. */
  lemma BuiltInLeapDayOfYearZeroShifted(k: Clock)
    requires k.localCivil(k.localTime(Civil(1900, 1, 29, 0, 0, 0, 0))) == Civil(1900, 2, 1, 0, 0, 0, 0)
    requires LocalExists(k, Civil(0, 2, 1, 0, 0, 0, 0)) && LocalExists(k, Civil(0, 1, 29, 0, 0, 0, 0))
    ensures k.localCivil(BuiltInCounterAsWritten(k, [Integer(0), Integer(2), Integer(29)])) == Civil(0, 2, 1, 0, 0, 0, 0)
    ensures k.localCivil(BuiltInCounter(k, [Integer(0), Integer(2), Integer(29)])) == Civil(0, 1, 29, 0, 0, 0, 0)
  {
    var ns := [Integer(0), Integer(2), Integer(29)];
    var a := ns[1 := Decrement(ns[1])];
    assert a == [Integer(0), Integer(1), Integer(29)];
    assert AllIntegerArgs(a);
    assert CivilOfArgs(a) == Civil(0, 1, 29, 0, 0, 0, 0);
  }

  /** The constructor as written moves a time of day that falls in a
      daylight saving gap of year 1900 + y: in a zone whose clocks went
      from 02:00 to 03:00 on 23 February 1975, 02:30 on 23 February of
      year 75 is built as 03:30, while the corrected constructor keeps
      02:30 when that time exists in year 75. */
  lemma BuiltInDaylightGapOfYear75Shifted(k: Clock)
    requires k.localCivil(k.localTime(Civil(1975, 1, 23, 2, 30, 0, 0))) == Civil(1975, 1, 23, 3, 30, 0, 0)
    requires LocalExists(k, Civil(75, 1, 23, 3, 30, 0, 0)) && LocalExists(k, Civil(75, 1, 23, 2, 30, 0, 0))
    ensures k.localCivil(BuiltInCounterAsWritten(k, [Integer(75), Integer(2), Integer(23), Integer(2), Integer(30)]))
            == Civil(75, 1, 23, 3, 30, 0, 0)
    ensures k.localCivil(BuiltInCounter(k, [Integer(75), Integer(2), Integer(23), Integer(2), Integer(30)]))
            == Civil(75, 1, 23, 2, 30, 0, 0)
  {
    var ns := [Integer(75), Integer(2), Integer(23), Integer(2), Integer(30)];
    var a := ns[1 := Decrement(ns[1])];
    assert a == [Integer(75), Integer(1), Integer(23), Integer(2), Integer(30)];
    assert AllIntegerArgs(a);
    assert CivilOfArgs(a) == Civil(75, 1, 23, 2, 30, 0, 0);
  }

  /** fullUTC as written: the UTC counter of calendar-free Gregorian
      fields (month 1-based, later fields defaulting to 1, 0, 0, 0, 0),
      built with Date.UTC (a year in 0..99 read as 19xx) and then given the
      literal year again when it lies in [0, 100). */
  function FullUtcAsWritten(k: Clock, args: seq<int>): (t: int)
    requires 1 <= |args|
    ensures !(0 <= args[0] < 100) ==> t == k.utcTime(UtcArgs(args))
    ensures 0 <= args[0] < 100 ==>
              t == SetFullYearUtc(k, k.utcTime(UtcArgs(args).(year := 1900 + args[0])), args[0])
  {
    var c := UtcArgs(args);
    var t0 := k.utcTime(c.(year := LegacyYear(c.year)));
    if 0 <= args[0] < 100 then SetFullYearUtc(k, t0, args[0]) else t0
  }

  /** Gregorian coordinates of fullUTC's arguments, month made 0-based. */
  function UtcArgs(args: seq<int>): Civil
    requires 1 <= |args|
  {
    Civil(args[0],
          if |args| > 1 then args[1] - 1 else 0,
          if |args| > 2 then args[2] else 1,
          if |args| > 3 then args[3] else 0,
          if |args| > 4 then args[4] else 0,
          if |args| > 5 then args[5] else 0,
          if |args| > 6 then args[6] else 0)
  }

  /** fullUTC with the year taken literally from the start. */
  function FullUtc(k: Clock, args: seq<int>): (t: int)
    requires 1 <= |args|
    ensures SoundUtc(k) && InRange(UtcArgs(args)) ==> k.utcCivil(t) == UtcArgs(args)
  {
    k.utcTime(UtcArgs(args))
  }

  /** fullUTC as written gives the requested UTC coordinates, the year
      taken literally, whenever the date also exists in year 1900 + y. */
  lemma FullUtcTakesYearLiterally(k: Clock, args: seq<int>)
    requires SoundUtc(k) && 1 <= |args|
    requires InRange(UtcArgs(args)) && InRange(UtcArgs(args).(year := LegacyYear(args[0])))
    ensures k.utcCivil(FullUtcAsWritten(k, args)) == UtcArgs(args)
    ensures FullUtcAsWritten(k, args) == FullUtc(k, args)
  {
    var c := UtcArgs(args);
    var t0 := k.utcTime(c.(year := LegacyYear(c.year)));
    assert k.utcCivil(t0) == c.(year := LegacyYear(c.year));
    if 0 <= args[0] < 100 {
      assert k.utcCivil(t0).(year := args[0]) == c;
    }
  }

  /** fullUTC as written turns 29 February of year 0 into 1 March of year
      0, because Date.UTC normalises the missing 29 February 1900 first. */
  lemma FullUtcLeapDayOfYearZeroShifted(k: Clock)
    requires SoundUtc(k)
    requires k.utcCivil(k.utcTime(Civil(1900, 1, 29, 0, 0, 0, 0))) == Civil(1900, 2, 1, 0, 0, 0, 0)
    ensures k.utcCivil(FullUtcAsWritten(k, [0, 2, 29])) == Civil(0, 2, 1, 0, 0, 0, 0)
    ensures k.utcCivil(FullUtc(k, [0, 2, 29])) == Civil(0, 1, 29, 0, 0, 0, 0)
  {
    assert UtcArgs([0, 2, 29]) == Civil(0, 1, 29, 0, 0, 0, 0);
    assert InRange(Civil(0, 2, 1, 0, 0, 0, 0));
    assert InRange(Civil(0, 1, 29, 0, 0, 0, 0)) by { assert LeapYear(0); }
  }

  /** The counter the constructor stores, or the exception it throws. */
  function CreationCounter(k: Clock, arg: CalendarArg, args: DateArgs): (r: Result<int>)
    ensures CalendarOf(arg).Failure? ==> r == CalendarOf(arg).PropagateFailure()
    ensures CalendarOf(arg).Success? ==>
              (r.Failure? <==> arg.Object? && args.Numbers? && |args.numbers| > 1 && !AllIntegerArgs(args.numbers))
    ensures r.Failure? && CalendarOf(arg).Success? ==> r.error.TypeError?
    ensures CalendarOf(arg).Success? && args.Text? ==> r == Success(k.parse(args.text))
    ensures CalendarOf(arg).Success? && args == Numbers([]) ==> r == Success(k.now)
    ensures CalendarOf(arg).Success? && args.Numbers? && |args.numbers| == 1 ==>
              r == Success(if args.numbers[0].Integer? then args.numbers[0].value else k.looseDate(args.numbers))
    ensures args.Numbers? && |args.numbers| > 1 && arg.Object? && r.Success? ==>
              var c := arg.cal.counterFromFields(ArgumentFields(args.numbers).value);
              r.value - TZmsOffset(k, "", c) == c
    ensures args.Numbers? && |args.numbers| > 1 && CalendarOf(arg).Success? && !arg.Object? ==>
              r == Success(BuiltInCounter(k, args.numbers))
  {
    var cal :- CalendarOf(arg);
    match args
    case Text(s) => Success(k.parse(s))
    case Numbers(ns) =>
      if |ns| == 0 then Success(k.now)
      else if |ns| == 1 then Success(if ns[0].Integer? then ns[0].value else k.looseDate(ns))
      else if cal.Custom? then
        var fields :- ArgumentFields(ns);
        var c := cal.cal.counterFromFields(fields);
        Success(c + TZmsOffset(k, "", c))
      else Success(BuiltInCounter(k, ns))
  }

  /** Fields given to a custom calendar at construction are read back by
      getFields in the environment's zone, provided they are the
      calendar's own fields for the counter they give and the zone offset
      is the same at both instants. */
  lemma CreatedFieldsReadBack(k: Clock, c: Calendar, ns: seq<Number>)
    requires |ns| > 1 && AllIntegerArgs(ns)
    requires var m := ArgumentFields(ns).value;
             var c0 := c.counterFromFields(m);
             NumericMap(c.fieldsFromCounter(c0), 7) == m &&
             TZmsOffset(k, "", c0 + TZmsOffset(k, "", c0)) == TZmsOffset(k, "", c0)
    ensures CreationCounter(k, Object(c), Numbers(ns)).Success?
    ensures var t := CreationCounter(k, Object(c), Numbers(ns)).value;
            NumericMap(FieldsAt(k, Custom(c), t - TZmsOffset(k, "", t)), 7) == ArgumentFields(ns).value
  {
    var m := ArgumentFields(ns).value;
    var c0 := c.counterFromFields(m);
    var t := c0 + TZmsOffset(k, "", c0);
    assert CreationCounter(k, Object(c), Numbers(ns)) == Success(t);
    assert t - TZmsOffset(k, "", t) == c0;
  }

  /** Object.assign(fields, asked): supplied fields replace current ones. */
  function Merge(f: Fields, p: PartialFields): (r: Fields)
    ensures p.fullYear.Some? ==> r.fullYear == p.fullYear.value
    ensures p.fullYear.None? ==> r.fullYear == f.fullYear
    ensures p.month.Some? ==> r.month == p.month.value
    ensures p.month.None? ==> r.month == f.month
    ensures p.day.Some? ==> r.day == p.day.value
    ensures p.day.None? ==> r.day == f.day
    ensures p.hours.Some? ==> r.hours == p.hours.value
    ensures p.hours.None? ==> r.hours == f.hours
    ensures p.minutes.Some? ==> r.minutes == p.minutes.value
    ensures p.minutes.None? ==> r.minutes == f.minutes
    ensures p.seconds.Some? ==> r.seconds == p.seconds.value
    ensures p.seconds.None? ==> r.seconds == f.seconds
    ensures p.milliseconds.Some? ==> r.milliseconds == p.milliseconds.value
    ensures p.milliseconds.None? ==> r.milliseconds == f.milliseconds
    ensures p.era.Some? ==> r.era == p.era
    ensures p.era.None? ==> r.era == f.era
    ensures p.year.Some? ==> r.year == p.year.value
    ensures p.year.None? ==> r.year == f.year
  {
    Fields(p.fullYear.GetOr(f.fullYear), p.month.GetOr(f.month), p.day.GetOr(f.day),
           p.hours.GetOr(f.hours), p.minutes.GetOr(f.minutes), p.seconds.GetOr(f.seconds),
           p.milliseconds.GetOr(f.milliseconds),
           if p.era.Some? then p.era else f.era, p.year.GetOr(f.year))
  }

  /** The partial fields that supply every field of f. */
  function Supplied(f: Fields): PartialFields {
    PartialFields(Some(f.fullYear), Some(f.month), Some(f.day), Some(f.hours), Some(f.minutes),
                  Some(f.seconds), Some(f.milliseconds), f.era, Some(f.year))
  }

  /** Merging keeps every field the partial set leaves out, takes every
      field it supplies, and merging twice changes nothing more. */
  lemma MergeProperties(f: Fields, p: PartialFields)
    ensures p == PartialFields(None, None, None, None, None, None, None, None, None) ==> Merge(f, p) == f
    ensures Merge(Merge(f, p), p) == Merge(f, p)
    ensures Merge(f, Supplied(f)) == f
    ensures forall g :: Merge(g, Supplied(f)) == f || f.era.None?
  {
  }

  /** Object.assign(weekFields, asked): supplied week fields replace current
      ones. */
  function MergeWeek(w: WeekFields, p: PartialWeekFields): (r: WeekFields)
    ensures p.weekYearOffset.Some? ==> r.weekYearOffset == p.weekYearOffset.value
    ensures p.weekYearOffset.None? ==> r.weekYearOffset == w.weekYearOffset
    ensures p.weekYear.Some? ==> r.weekYear == p.weekYear.value
    ensures p.weekYear.None? ==> r.weekYear == w.weekYear
    ensures p.weekNumber.Some? ==> r.weekNumber == p.weekNumber.value
    ensures p.weekNumber.None? ==> r.weekNumber == w.weekNumber
    ensures p.weekday.Some? ==> r.weekday == p.weekday.value
    ensures p.weekday.None? ==> r.weekday == w.weekday
    ensures p.weeksInYear.Some? ==> r.weeksInYear == p.weeksInYear.value
    ensures p.weeksInYear.None? ==> r.weeksInYear == w.weeksInYear
  {
    WeekFields(p.weekYearOffset.GetOr(w.weekYearOffset), p.weekYear.GetOr(w.weekYear),
               p.weekNumber.GetOr(w.weekNumber), p.weekday.GetOr(w.weekday),
               p.weeksInYear.GetOr(w.weeksInYear))
  }

  /** The week coordinates counterFromWeekFields receives: the first three
      numeric week fields and nothing else. */
  function WeekDateOf(w: WeekFields): (d: WeekDate)
    ensures d.weekYear == w.weekYear && d.weekNumber == w.weekNumber && d.weekday == w.weekday
  {
    WeekDate(w.weekYear, w.weekNumber, w.weekday)
  }

  /** The hour value setHours receives. */
  function HourValue(h: Number): int
    requires !h.NaN?
  {
    match h
    case Integer(v) => v
    case Fractional(x) => Trunc(x)
  }

  /** setFullTime on counter t: hours are required; omitted minutes,
      seconds and milliseconds keep their current values in the zone; the
      zone must be "" (environment) or "UTC". */
  function FullTime(k: Clock, tz: string, t: int, hours: Option<Number>, minutes: Option<int>,
                    seconds: Option<int>, milliseconds: Option<int>): (r: Result<int>)
    ensures r.Failure? && r.error.TypeError? <==> hours.None? || hours.value.NaN?
    ensures r.Failure? && r.error.RangeError? <==> hours.Some? && !hours.value.NaN? && tz != "" && tz != "UTC"
    ensures r.Success? && tz == "UTC" ==>
              r.value == k.utcTime(k.utcCivil(t).(hours := HourValue(hours.value),
                                                  minutes := minutes.GetOr(k.utcCivil(t).minutes),
                                                  seconds := seconds.GetOr(k.utcCivil(t).seconds),
                                                  ms := milliseconds.GetOr(k.utcCivil(t).ms)))
  {
    if hours.None? || hours.value.NaN? then Failure(TypeError("at least hours should be specified"))
    else
      var c := if tz == "" then k.localCivil(t) else k.utcCivil(t);
      var c' := c.(hours := HourValue(hours.value), minutes := minutes.GetOr(c.minutes),
                   seconds := seconds.GetOr(c.seconds), ms := milliseconds.GetOr(c.ms));
      if tz == "" then Success(k.localTime(c'))
      else if tz == "UTC" then Success(k.utcTime(c'))
      else Failure(RangeError("only UTC or blank value is possible for TZ"))
  }

  /** In UTC, setFullTime keeps the date and sets the time of day: the
      supplied parts take the given values and the omitted ones keep their
      current values. */
  lemma FullTimeUtcSetsTime(k: Clock, t: int, h: int, minutes: Option<int>, seconds: Option<int>, milliseconds: Option<int>)
    requires SoundUtc(k)
    requires 0 <= h < 24
    requires minutes.Some? ==> 0 <= minutes.value < 60
    requires seconds.Some? ==> 0 <= seconds.value < 60
    requires milliseconds.Some? ==> 0 <= milliseconds.value < 1000
    ensures FullTime(k, "UTC", t, Some(Integer(h)), minutes, seconds, milliseconds).Success?
    ensures var c := k.utcCivil(t);
            k.utcCivil(FullTime(k, "UTC", t, Some(Integer(h)), minutes, seconds, milliseconds).value)
            == c.(hours := h, minutes := minutes.GetOr(c.minutes), seconds := seconds.GetOr(c.seconds),
                  ms := milliseconds.GetOr(c.ms))
  {
    var c := k.utcCivil(t);
    assert InRange(c);
    var c' := c.(hours := h, minutes := minutes.GetOr(c.minutes), seconds := seconds.GetOr(c.seconds),
                 ms := milliseconds.GetOr(c.ms));
    assert InRange(c');
  }

  /** In the environment's zone, setFullTime keeps the local date and sets
      the local time of day, the omitted parts keeping their values, exactly
      when that wall-clock time exists in the zone: a time asked in a
      daylight saving gap is moved by the platform. */
  lemma FullTimeLocalSetsTime(k: Clock, t: int, h: int, minutes: Option<int>, seconds: Option<int>, milliseconds: Option<int>)
    ensures FullTime(k, "", t, Some(Integer(h)), minutes, seconds, milliseconds).Success?
    ensures var c := k.localCivil(t);
            var asked := c.(hours := h, minutes := minutes.GetOr(c.minutes), seconds := seconds.GetOr(c.seconds),
                            ms := milliseconds.GetOr(c.ms));
            k.localCivil(FullTime(k, "", t, Some(Integer(h)), minutes, seconds, milliseconds).value) == asked
            <==> LocalExists(k, asked)
  {
  }

  class ExtDate {
    /** The time counter (Date.prototype.valueOf), milliseconds since the
        epoch. */
    var counter: int
    const calendar: CalendarRef
    const clock: Clock

    constructor Init(k: Clock, cal: CalendarRef, t: int)
      ensures clock == k && calendar == cal && counter == t
    {
      clock := k;
      calendar := cal;
      counter := t;
    }

    /** new ExtDate(calendar, ...dateArguments). */
    static method Create(k: Clock, arg: CalendarArg, args: DateArgs) returns (r: Result<ExtDate>)
      ensures r.Success? <==> CreationCounter(k, arg, args).Success?
      ensures r.Failure? ==> r.error == CreationCounter(k, arg, args).error
      ensures r.Success? ==> fresh(r.value) && r.value.clock == k &&
                             r.value.calendar == CalendarOf(arg).value &&
                             r.value.counter == CreationCounter(k, arg, args).value
    {
      var cal :- CalendarOf(arg);
      var t: int;
      match args {
        case Text(s) =>
          t := k.parse(s);
        case Numbers(ns) =>
          if |ns| == 0 {
            t := k.now;
          } else if |ns| == 1 {
            t := if ns[0].Integer? then ns[0].value else k.looseDate(ns);
          } else if cal.Custom? {
            var fields :- FieldsFromArguments(ns);
            var utc := cal.cal.counterFromFields(fields);
            t := utc + TZmsOffset(k, "", utc);
          } else {
            t := BuiltInCounter(k, ns);
          }
      }
      var d := new ExtDate.Init(k, cal, t);
      r := Success(d);
    }

    /** getRealTZmsOffset at the current counter. */
    function RealTZmsOffset(tz: string): (off: int)
      reads this
      ensures tz == "UTC" ==> off == 0
    {
      TZmsOffset(clock, tz, counter)
    }

    /** getFields: the calendar applied to the counter minus the zone
        offset. */
    function GetFields(tz: string): (f: Fields)
      reads this
      ensures calendar.Custom? ==> f == calendar.cal.fieldsFromCounter(counter - RealTZmsOffset(tz))
      ensures !calendar.Custom? ==> f == BuiltInFields(calendar.Gregory?, clock.utcCivil(counter - RealTZmsOffset(tz)))
      ensures !calendar.Custom? && tz == "" && SoundUtc(clock) && SoundLocal(clock) ==>
                f == BuiltInFields(calendar.Gregory?, clock.localCivil(counter))
      ensures calendar.Custom? && RoundTrips(calendar.cal) ==>
                calendar.cal.counterFromFields(NumericMap(f, 7)) == counter - RealTZmsOffset(tz)
      ensures calendar.Iso8601? ==> f.era.None? && f.year == f.fullYear
      ensures calendar.Gregory? ==> f.era.Some? && (f.era.value == "ERA0" <==> f.fullYear <= 0) && f.year >= 1
      ensures !calendar.Custom? && SoundUtc(clock) ==>
                1 <= f.month <= 12 && 1 <= f.day <= 31 && 0 <= f.hours < 24 &&
                0 <= f.minutes < 60 && 0 <= f.seconds < 60 && 0 <= f.milliseconds < 1000
    {
      var t := counter - RealTZmsOffset(tz);
      assert !calendar.Custom? && SoundUtc(clock) ==> InRange(clock.utcCivil(t));
      assert tz == "" && SoundUtc(clock) && SoundLocal(clock) ==> clock.utcCivil(t) == clock.localCivil(counter) by {
        if tz == "" && SoundUtc(clock) && SoundLocal(clock) {
          LocalOffsetKeepsWallClock(clock, counter);
        }
      }
      FieldsAt(clock, calendar, t)
    }

    /** getWeekFields: only custom calendars with week fields have them. */
    function GetWeekFields(tz: string): (r: Result<WeekFields>)
      reads this
      ensures r.Success? <==> calendar.Custom? && calendar.cal.weekFieldsFromCounter.Some?
      ensures !calendar.Custom? ==> r.Failure? && r.error.RangeError?
      ensures calendar.Custom? && r.Failure? ==> r.error.TypeError?
      ensures r.Success? ==> r.value == calendar.cal.weekFieldsFromCounter.value(counter - RealTZmsOffset(tz))
      ensures r.Success? && Conforms(calendar.cal) ==>
                r.value.weekYear == GetFields(tz).fullYear + r.value.weekYearOffset
    {
      match calendar
      case Custom(c) =>
        if c.weekFieldsFromCounter.Some? then
          Success(c.weekFieldsFromCounter.value(counter - RealTZmsOffset(tz)))
        else Failure(TypeError("weekFieldsFromCounter is not a function"))
      case _ => Failure(RangeError("getWeekFields method not available for built-in calendars"))
    }

    /** inLeapYear: only when the calendar provides the function. */
    function InLeapYear(tz: string): (r: Result<bool>)
      reads this
      ensures r.Success? <==> calendar.Custom? && calendar.cal.inLeapYear.Some?
      ensures r.Failure? ==> r.error.RangeError?
      ensures r.Success? ==> r.value == calendar.cal.inLeapYear.value(GetFields(tz))
    {
      if calendar.Custom? && calendar.cal.inLeapYear.Some? then
        Success(calendar.cal.inLeapYear.value(GetFields(tz)))
      else Failure(RangeError("inLeapYear function not provided for this calendar"))
    }

    /** The full year, signed and unambiguous. */
    function FullYear(tz: string): (y: int)
      reads this
      ensures calendar.Gregory? ==>
                y == if GetFields(tz).era == Some("ERA0") then 1 - GetFields(tz).year else GetFields(tz).year
    {
      GetFields(tz).fullYear
    }

    /** The era code, if the calendar has eras. */
    function Era(tz: string): (e: Option<string>)
      reads this
      ensures calendar.Iso8601? ==> e.None?
      ensures calendar.Gregory? ==> e.Some? && e.value in {"ERA0", "ERA1"}
    {
      GetFields(tz).era
    }

    /** The displayed year, relative to the era. */
    function Year(tz: string): (y: int)
      reads this
      ensures (calendar.Iso8601? || (calendar.Custom? && Conforms(calendar.cal))) && GetFields(tz).era.None? ==>
                y == GetFields(tz).fullYear
      ensures calendar.Gregory? ==> y >= 1
    {
      var f := GetFields(tz);
      assert calendar.Custom? && Conforms(calendar.cal) ==>
               f == calendar.cal.fieldsFromCounter(counter - RealTZmsOffset(tz));
      f.year
    }

    /** The month number, the first month being 1. */
    function Month(tz: string): (m: int)
      reads this
      ensures calendar.Custom? && Conforms(calendar.cal) ==> m >= 1
      ensures !calendar.Custom? && SoundUtc(clock) ==> 1 <= m <= 12
    {
      var f := GetFields(tz);
      assert calendar.Custom? ==> f == calendar.cal.fieldsFromCounter(counter - RealTZmsOffset(tz));
      f.month
    }

    /** The day number in the month. */
    function Day(tz: string): (d: int)
      reads this
      ensures !calendar.Custom? && SoundUtc(clock) ==> 1 <= d <= 31
    {
      GetFields(tz).day
    }

    function Hours(tz: string): (h: int)
      reads this
      ensures !calendar.Custom? && SoundUtc(clock) ==> 0 <= h < 24
    {
      GetFields(tz).hours
    }

    function Minutes(tz: string): (m: int)
      reads this
      ensures !calendar.Custom? && SoundUtc(clock) ==> 0 <= m < 60
    {
      GetFields(tz).minutes
    }

    function Seconds(tz: string): (s: int)
      reads this
      ensures !calendar.Custom? && SoundUtc(clock) ==> 0 <= s < 60
    {
      GetFields(tz).seconds
    }

    function Milliseconds(tz: string): (ms: int)
      reads this
      ensures !calendar.Custom? && SoundUtc(clock) ==> 0 <= ms < 1000
    {
      GetFields(tz).milliseconds
    }

    /** The weekday number, in the calendar's own numbering. */
    function Weekday(tz: string): (r: Result<int>)
      reads this
      ensures r.Success? <==> GetWeekFields(tz).Success?
      ensures r.Success? && calendar.cal.weekFieldsFromCounter.Some? && Conforms(calendar.cal) ==>
                || (WeekdayBase(calendar.cal) == 0 && 0 <= r.value <= 6)
                || (WeekdayBase(calendar.cal) == 1 && 1 <= r.value <= 7)
    {
      var w :- GetWeekFields(tz);
      assert calendar.cal.weekFieldsFromCounter.Some? && Conforms(calendar.cal) ==>
               || (WeekdayBase(calendar.cal) == 0 && 0 <= w.weekday <= 6)
               || (WeekdayBase(calendar.cal) == 1 && 1 <= w.weekday <= 7) by {
        if Conforms(calendar.cal) {
          WeekdayInRange(calendar.cal, counter - RealTZmsOffset(tz));
        }
      }
      Success(w.weekday)
    }

    function WeekNumber(tz: string): (r: Result<int>)
      reads this
      ensures r.Success? <==> GetWeekFields(tz).Success?
      ensures !calendar.Custom? ==> r.Failure? && r.error.RangeError?
    {
      var w :- GetWeekFields(tz);
      Success(w.weekNumber)
    }

    function WeeksInYear(tz: string): (r: Result<int>)
      reads this
      ensures r.Success? <==> GetWeekFields(tz).Success?
      ensures !calendar.Custom? ==> r.Failure? && r.error.RangeError?
    {
      var w :- GetWeekFields(tz);
      Success(w.weeksInYear)
    }

    /** The year the week belongs to: the full year plus the week-year
        offset. */
    function WeekYear(tz: string): (r: Result<int>)
      reads this
      ensures r.Success? <==> GetWeekFields(tz).Success?
      ensures r.Success? && Conforms(calendar.cal) ==>
                r.value == FullYear(tz) + GetWeekFields(tz).value.weekYearOffset
    {
      var w :- GetWeekFields(tz);
      Success(w.weekYear)
    }

    /** setFullTime: sets the time of day in the zone, keeping the date. */
    method SetFullTime(tz: string, hours: Option<Number>, minutes: Option<int>,
                       seconds: Option<int>, milliseconds: Option<int>) returns (r: Result<int>)
      modifies this
      ensures r == FullTime(clock, tz, old(counter), hours, minutes, seconds, milliseconds)
      ensures counter == if r.Success? then r.value else old(counter)
    {
      if hours.None? || hours.value.NaN? {
        return Failure(TypeError("at least hours should be specified"));
      }
      var c := if tz == "" then clock.localCivil(counter) else clock.utcCivil(counter);
      var m := if minutes.None? then c.minutes else minutes.value;
      var s := if seconds.None? then c.seconds else seconds.value;
      var ms := if milliseconds.None? then c.ms else milliseconds.value;
      var c' := c.(hours := HourValue(hours.value), minutes := m, seconds := s, ms := ms);
      if tz == "" {
        counter := clock.localTime(c');
      } else if tz == "UTC" {
        counter := clock.utcTime(c');
      } else {
        return Failure(RangeError("only UTC or blank value is possible for TZ"));
      }
      r := Success(counter);
    }

    /** setFromFields: the calendar's resolution of the asked fields is
        merged over the current fields; the date part (fullYear, month,
        day) gives a new counter through counterFromFields, and the merged
        time of day is then applied with setFullTime. When setFullTime
        rejects the zone, the date part has already been stored. */
    method SetFromFields(asked: PartialFields, tz: string) returns (r: Result<int>)
      modifies this
      ensures !calendar.Custom? ==> r.Failure? && r.error.TypeError? && counter == old(counter)
      ensures calendar.Custom? ==>
                var f := Merge(old(GetFields(tz)), calendar.cal.solveAskedFields(asked));
                var day := calendar.cal.counterFromFields(NumericMap(f, 3));
                && r == FullTime(clock, tz, day, Some(Integer(f.hours)), Some(f.minutes), Some(f.seconds), Some(f.milliseconds))
                && counter == if r.Success? then r.value else day
    {
      if !calendar.Custom? {
        return Failure(TypeError("setFromFields does not work with built-in calendars"));
      }
      var fields := Merge(GetFields(tz), calendar.cal.solveAskedFields(asked));
      counter := calendar.cal.counterFromFields(NumericMap(fields, 3));
      r := SetFullTime(tz, Some(Integer(fields.hours)), Some(fields.minutes), Some(fields.seconds), Some(fields.milliseconds));
    }

    /** setFromWeekFields: the given week fields are merged over the
        current ones; weekYear, weekNumber and weekday give a new counter
        through counterFromWeekFields, and the current time of day is
        applied again. */
    method SetFromWeekFields(asked: PartialWeekFields, tz: string) returns (r: Result<int>)
      modifies this
      ensures !calendar.Custom? ==> r.Failure? && r.error.TypeError? && counter == old(counter)
      ensures calendar.Custom? && old(GetWeekFields(tz)).Failure? ==> r == old(GetWeekFields(tz)).PropagateFailure() && counter == old(counter)
      ensures calendar.Custom? && old(GetWeekFields(tz)).Success? && calendar.cal.counterFromWeekFields.None? ==>
                r.Failure? && r.error.TypeError? && counter == old(counter)
      ensures calendar.Custom? && old(GetWeekFields(tz)).Success? && calendar.cal.counterFromWeekFields.Some? ==>
                var f := old(GetFields(tz));
                var w := MergeWeek(old(GetWeekFields(tz)).value, asked);
                var day := calendar.cal.counterFromWeekFields.value(WeekDateOf(w));
                && r == FullTime(clock, tz, day, Some(Integer(f.hours)), Some(f.minutes), Some(f.seconds), Some(f.milliseconds))
                && counter == if r.Success? then r.value else day
    {
      if !calendar.Custom? {
        return Failure(TypeError("setFromWeekFields does not work with built-in calendars"));
      }
      var time := GetFields(tz);
      var week :- GetWeekFields(tz);
      week := MergeWeek(week, asked);
      if calendar.cal.counterFromWeekFields.None? {
        return Failure(TypeError("counterFromWeekFields is not a function"));
      }
      counter := calendar.cal.counterFromWeekFields.value(WeekDateOf(week));
      r := SetFullTime(tz, Some(Integer(time.hours)), Some(time.minutes), Some(time.seconds), Some(time.milliseconds));
    }
  }
}

=== FILE: ext_date_time_format.dfy ===
/** ExtDateTimeFormat: the standard date formatter extended to custom
    calendars. Construction resolves the options once; formatToParts takes
    the standard database's parts for a date and rewrites them: per-field
    rendering after the calendar's partsFormat, a width correction for
    numeric fields, and the removal of an era that should not be shown. */
module ExtDateTimeFormats {
  import opened Base
  import opened Platform
  import opened LocaleDatabase
  import opened CalendarModel
  import opened ExtDates
  import opened FormatOptions

  /** The calendar argument of the constructor. */
  datatype CalendarParam =
    | NoCalendar             // undefined or null
    | BuiltIn(name: string)  // a built-in calendar name
    | CustomCal(cal: Calendar)

  /** A constructed formatter: the resolved options, the options resolved by
      the standard database, the custom calendar if any (its stringFormat
      resolved), the resolved locale and its language, and the LDML
      contexts and width for month and weekday names. */
  datatype Formatter = Formatter(
    options: Options,
    dtf: Options,
    calendar: Option<Calendar>,
    locale: string,
    lang: string,
    monthContext: string,
    monthWidth: Option<string>,
    dayContext: string,
    intl: Intl,
    clock: Clock)

  /** The caller's options, with the calendar forced when a built-in name
      is given. */
  function AskedOptions(asked: Options, param: CalendarParam): (o: Options)
    ensures param.BuiltIn? ==> o == asked["calendar" := param.name]
    ensures !param.BuiltIn? ==> o == asked
  {
    if param.BuiltIn? then asked["calendar" := param.name] else asked
  }

  function CustomOf(param: CalendarParam): (c: Option<Calendar>)
    ensures c.Some? <==> param.CustomCal?
  {
    if param.CustomCal? then Some(param.cal) else None
  }

  /** The calendar option: the custom calendar's canvas when it has one,
      the resolved calendar otherwise. */
  function CalendarOption(cal: Option<Calendar>, dtf0: Options): (c: Option<string>)
    ensures cal.Some? && cal.value.canvas.Some? ==> c == cal.value.canvas
    ensures !(cal.Some? && cal.value.canvas.Some?) ==> c == Get(dtf0, "calendar")
  {
    if cal.Some? && cal.value.canvas.Some? then cal.value.canvas else Get(dtf0, "calendar")
  }

  /** A custom calendar's stringFormat defaults to "auto" and must be one of
      "built-in", "fields" and "auto". */
  function CheckStringFormat(cal: Option<Calendar>): (r: Result<Option<Calendar>>)
    ensures r.Failure? <==> cal.Some? && cal.value.stringFormat.Some? && !KnownStringFormat(cal.value.stringFormat.value)
    ensures r.Failure? ==> r.error.RangeError?
    ensures r.Success? ==> (r.value.Some? <==> cal.Some?)
    ensures r.Success? && cal.Some? ==>
              && r.value.value == cal.value.(stringFormat := r.value.value.stringFormat)
              && r.value.value.stringFormat == Some(cal.value.stringFormat.GetOr("auto"))
              && KnownStringFormat(r.value.value.stringFormat.value)
  {
    match cal
    case None => Success(None)
    case Some(c) =>
      var format := c.stringFormat.GetOr("auto");
      if KnownStringFormat(format) then Success(Some(c.(stringFormat := Some(format))))
      else Failure(RangeError("Unknown option for date string computing method"))
  }

  /** The canvas checks: "fields" needs a canvas with Roman months, and no
      lunisolar canvas is accepted. */
  function CanvasError(cal: Option<Calendar>): (e: Option<Error>)
    ensures e.Some? ==> e.value.RangeError?
    ensures e.Some? <==> cal.Some? && ((cal.value.stringFormat == Some("fields") && !RomanCanvas(cal.value.canvas))
                                       || LunisolarCanvas(cal.value.canvas))
  {
    if cal.None? then None
    else if cal.value.stringFormat == Some("fields") && !RomanCanvas(cal.value.canvas) then
      Some(RangeError("Canvas formatting implemented only from gregory-like built-in calendars"))
    else if LunisolarCanvas(cal.value.canvas) then
      Some(RangeError("No canvas formatting from luni-solar calendars"))
    else None
  }

  /** The keys the formatter copies from the standard database's resolution. */
  predicate ResolvedKey(key: string) {
    key in {"locale", "calendar", "numberingSystem", "timeZone", "timeZoneName", "dayPeriod", "hour12", "hourCycle"}
  }

  /** The standard database's first resolution, from the caller's options. */
  function FirstDtf(intl: Intl, locale: string, asked: Options, param: CalendarParam): Options {
    intl.resolvedOptions(locale, AskedOptions(asked, param))
  }

  /** The standard database's resolution, made again when the calendar
      option differs from the resolved calendar. */
  function ResolvedDtf(intl: Intl, locale: string, asked: Options, param: CalendarParam): (dtf: Options)
    ensures (CalendarOption(CustomOf(param), FirstDtf(intl, locale, asked, param))
               == Get(FirstDtf(intl, locale, asked, param), "calendar"))
            ==> dtf == FirstDtf(intl, locale, asked, param)
  {
    var dtf0 := FirstDtf(intl, locale, asked, param);
    var calendar := CalendarOption(CustomOf(param), dtf0);
    if calendar != Get(dtf0, "calendar") then
      intl.resolvedOptions(Get(dtf0, "locale").GetOr(""), Put(dtf0, "calendar", calendar))
    else dtf0
  }

  /** The options after the steps that run before any check: defaults,
      resolved locale and calendar, and the options copied from the
      standard database; every other option is the caller's. */
  function EarlyOptions(intl: Intl, locale: string, asked: Options, param: CalendarParam): (o: Options)
    ensures Get(o, "locale") == Get(FirstDtf(intl, locale, asked, param), "locale")
    ensures Get(o, "calendar") == CalendarOption(CustomOf(param), FirstDtf(intl, locale, asked, param))
    ensures forall key :: !ResolvedKey(key) ==> Get(o, key) == Get(DefaultFields(AskedOptions(asked, param)), key)
  {
    var dtf0 := FirstDtf(intl, locale, asked, param);
    var o1 := Put(DefaultFields(AskedOptions(asked, param)), "locale", Get(dtf0, "locale"));
    var o2 := Put(o1, "calendar", CalendarOption(CustomOf(param), dtf0));
    CopyResolved(o2, ResolvedDtf(intl, locale, asked, param))
  }

  /** The steps of the constructor after the early ones, from the early
      options o, the standard database's resolution dtf and the calendar
      argument: eraDisplay, stringFormat, locale, shorthands and canvas. */
  function Finish(intl: Intl, k: Clock, o: Options, dtf: Options, cal0: Option<Calendar>): (r: Result<Formatter>)
    ensures r.Success? ==> "locale" in o && r.value.locale == o["locale"] && r.value.lang == Language(r.value.locale)
    ensures r.Success? ==> CheckStringFormat(cal0).Success? && r.value.calendar == CheckStringFormat(cal0).value
    ensures r.Success? ==> r.value.dtf == dtf && r.value.intl == intl && r.value.clock == k
    ensures r.Success? ==>
              && EraDisplayOf(o, dtf).Success?
              && r.value.options == ExpandShorthands(o["eraDisplay" := EraDisplayOf(o, dtf).value])
    ensures r.Success? ==>
              && r.value.monthContext == MonthContext(r.value.options)
              && r.value.monthWidth == MonthWidth(r.value.options)
              && r.value.dayContext == DayContext(r.value.options)
  {
    var eraDisplay :- EraDisplayOf(o, dtf);
    var o1 := o["eraDisplay" := eraDisplay];
    var cal :- CheckStringFormat(cal0);
    if "locale" !in o1 then Failure(TypeError("the resolved locale is undefined"))
    else
      var resolvedLocale := o1["locale"];
      var o2 := ExpandShorthands(o1);
      var canvasError := CanvasError(cal);
      if canvasError.Some? then Failure(canvasError.value)
      else Success(Formatter(o2, dtf, cal, resolvedLocale, Language(resolvedLocale),
                             MonthContext(o2), MonthWidth(o2), DayContext(o2), intl, k))
  }

  /** The constructor, as a function of its arguments and of the injected
      services: the formatter, or the exception the constructor throws. */
  function Resolve(intl: Intl, k: Clock, locale: string, asked: Options, param: CalendarParam): (r: Result<Formatter>)
    ensures r.Success? ==>
              && Get(EarlyOptions(intl, locale, asked, param), "locale") == Some(r.value.locale)
              && r.value.lang == Language(r.value.locale)
    ensures r.Success? ==> (r.value.calendar.Some? <==> param.CustomCal?)
    ensures var e := EarlyOptions(intl, locale, asked, param);
            var dtf := ResolvedDtf(intl, locale, asked, param);
            r.Success? ==>
              && EraDisplayOf(e, dtf).Success?
              && r.value.options == ExpandShorthands(e["eraDisplay" := EraDisplayOf(e, dtf).value])
  {
    Finish(intl, k, EarlyOptions(intl, locale, asked, param), ResolvedDtf(intl, locale, asked, param), CustomOf(param))
  }

  /** The later steps throw a range error exactly for an unknown
      eraDisplay, an unknown stringFormat, or a canvas the formatter
      refuses; and a type error only when the resolved locale is missing. */
  lemma FinishErrors(intl: Intl, k: Clock, o: Options, dtf: Options, cal0: Option<Calendar>)
    ensures var r := Finish(intl, k, o, dtf, cal0);
            && (r.Failure? && r.error.RangeError? <==>
                  || ("eraDisplay" in o && o["eraDisplay"] !in {"never", "always", "auto"})
                  || CheckStringFormat(cal0).Failure?
                  || ("locale" in o && CheckStringFormat(cal0).Success? && CanvasError(CheckStringFormat(cal0).value).Some?))
            && (r.Failure? && r.error.TypeError? ==> "locale" !in o)
  {
  }

  /** The constructor's exceptions, in terms of its arguments: a range
      error exactly for an unknown eraDisplay asked for, an unknown
      stringFormat of the custom calendar, or a canvas the formatter
      refuses; a type error only when the locale could not be resolved. */
  lemma ConstructionErrors(intl: Intl, k: Clock, locale: string, asked: Options, param: CalendarParam)
    ensures var r := Resolve(intl, k, locale, asked, param);
            var o := EarlyOptions(intl, locale, asked, param);
            var cal := CheckStringFormat(CustomOf(param));
            && (r.Failure? && r.error.RangeError? <==>
                  || ("eraDisplay" in asked && asked["eraDisplay"] !in {"never", "always", "auto"})
                  || (param.CustomCal? && cal.Failure?)
                  || ("locale" in o && cal.Success? && CanvasError(cal.value).Some?))
            && (r.Failure? && r.error.TypeError? ==> "locale" !in o)
  {
    var o := EarlyOptions(intl, locale, asked, param);
    FinishErrors(intl, k, o, ResolvedDtf(intl, locale, asked, param), CustomOf(param));
    EraDisplayAsAsked(asked, param, o);
  }

  lemma EraDisplayAsAsked(asked: Options, param: CalendarParam, o: Options)
    requires forall key :: !ResolvedKey(key) ==> Get(o, key) == Get(DefaultFields(AskedOptions(asked, param)), key)
    ensures Get(o, "eraDisplay") == Get(asked, "eraDisplay")
  {
    assert !ResolvedKey("eraDisplay");
    assert Get(DefaultFields(AskedOptions(asked, param)), "eraDisplay") == Get(AskedOptions(asked, param), "eraDisplay");
  }

  /** The first steps of the constructor: the options are completed and the
      standard database's resolution is copied into them. */
  method ResolveEarly(intl: Intl, locale: string, asked: Options, param: CalendarParam) returns (options: Options, dtf: Options)
    ensures options == EarlyOptions(intl, locale, asked, param)
    ensures dtf == ResolvedDtf(intl, locale, asked, param)
  {
    options := asked;
    if param.BuiltIn? {
      options := options["calendar" := param.name];
    }
    var calendar := CustomOf(param);
    dtf := intl.resolvedOptions(locale, options);
    if NoFieldAsked(options) {
      options := options["year" := "numeric"]["month" := "numeric"]["day" := "numeric"];
    }
    options := Put(options, "locale", Get(dtf, "locale"));
    var calendarOption := if calendar.Some? && calendar.value.canvas.Some? then calendar.value.canvas else Get(dtf, "calendar");
    options := Put(options, "calendar", calendarOption);
    if calendarOption != Get(dtf, "calendar") {
      dtf := intl.resolvedOptions(Get(dtf, "locale").GetOr(""), Put(dtf, "calendar", calendarOption));
    }
    options := CopyResolvedInPlace(options, dtf);
  }

  /** The options the constructor copies from the standard database's
      resolution, one after the other. */
  method CopyResolvedInPlace(o: Options, dtf: Options) returns (options: Options)
    ensures options == CopyResolved(o, dtf)
  {
    options := o;
    options := Put(options, "numberingSystem", Get(dtf, "numberingSystem"));
    options := Put(options, "timeZone", Get(dtf, "timeZone"));
    options := Put(options, "timeZoneName", Get(dtf, "timeZoneName"));
    options := Put(options, "dayPeriod", Get(dtf, "dayPeriod"));
    options := Put(options, "hour12", Get(dtf, "hour12"));
    options := Put(options, "hourCycle", Get(dtf, "hourCycle"));
  }

  /** The eraDisplay step of the constructor. */
  method ResolveEraDisplay(o: Options, dtf: Options) returns (r: Result<string>)
    ensures r == EraDisplayOf(o, dtf)
  {
    var eraDisplay := if "eraDisplay" in o then o["eraDisplay"] else "auto";
    if eraDisplay !in {"always", "auto", "never"} {
      return Failure(RangeError("Unknown option for displaying era"));
    }
    if eraDisplay == "auto" && "year" !in dtf {
      eraDisplay := "never";
    }
    r := Success(eraDisplay);
  }

  /** The canvas checks of the constructor. */
  method CheckCanvas(calendar: Option<Calendar>) returns (e: Option<Error>)
    ensures e == CanvasError(calendar)
  {
    e := None;
    if calendar.Some? && calendar.value.stringFormat == Some("fields") && !RomanCanvas(calendar.value.canvas) {
      return Some(RangeError("Canvas formatting implemented only from gregory-like built-in calendars"));
    }
    if calendar.Some? && LunisolarCanvas(calendar.value.canvas) {
      return Some(RangeError("No canvas formatting from luni-solar calendars"));
    }
  }

  /** The stringFormat step of the constructor, on the calendar object. */
  method ResolveStringFormat(cal: Option<Calendar>) returns (r: Result<Option<Calendar>>)
    ensures r == CheckStringFormat(cal)
  {
    var calendar := cal;
    if calendar.Some? {
      if calendar.value.stringFormat.None? {
        calendar := Some(calendar.value.(stringFormat := Some("auto")));
      }
      if !KnownStringFormat(calendar.value.stringFormat.value) {
        return Failure(RangeError("Unknown option for date string computing method"));
      }
    }
    r := Success(calendar);
  }

  /** The later steps of the constructor, rewriting the options and the
      calendar in place. */
  method FinishInPlace(intl: Intl, k: Clock, early: Options, dtf: Options, cal0: Option<Calendar>) returns (r: Result<Formatter>)
    ensures r == Finish(intl, k, early, dtf, cal0)
  {
    var options := early;
    var eraDisplay := ResolveEraDisplay(options, dtf);
    if eraDisplay.Failure? {
      return eraDisplay.PropagateFailure();
    }
    options := options["eraDisplay" := eraDisplay.value];
    var checked := ResolveStringFormat(cal0);
    if checked.Failure? {
      return checked.PropagateFailure();
    }
    var calendar := checked.value;
    if "locale" !in options {
      return Failure(TypeError("the resolved locale is undefined"));
    }
    var resolvedLocale := options["locale"];
    var lang := Language(resolvedLocale);
    options := ExpandTimeStyle(options);
    options := ExpandDateStyle(options);
    options := Cascade(options);
    var monthContext := MonthContext(options);
    var monthWidth := MonthWidth(options);
    var dayContext := DayContext(options);
    var canvasError := CheckCanvas(calendar);
    if canvasError.Some? {
      return Failure(canvasError.value);
    }
    r := Success(Formatter(options, dtf, calendar, resolvedLocale, lang, monthContext, monthWidth, dayContext, intl, k));
  }

  /** new ExtDateTimeFormat(locale, options, calendar). */
  method Construct(intl: Intl, k: Clock, locale: string, asked: Options, param: CalendarParam) returns (r: Result<Formatter>)
    ensures r == Resolve(intl, k, locale, asked, param)
  {
    var options, dtf := ResolveEarly(intl, locale, asked, param);
    r := FinishInPlace(intl, k, options, dtf, CustomOf(param));
  }

  /** What construction guarantees about the resolved options: no
      shorthand is left, eraDisplay is resolved, and the locale is recorded
      with its language. */
  lemma ResolvedOptionsWellFormed(intl: Intl, k: Clock, o: Options, dtf: Options, cal0: Option<Calendar>)
    requires Finish(intl, k, o, dtf, cal0).Success?
    ensures var f := Finish(intl, k, o, dtf, cal0).value;
            && "timeStyle" !in f.options && "dateStyle" !in f.options
            && EraDisplayOf(o, dtf).Success? && Get(f.options, "eraDisplay") == Some(EraDisplayOf(o, dtf).value)
            && Get(f.options, "locale") == Some(f.locale)
            && f.lang == Language(f.locale)
  {
    var o1 := o["eraDisplay" := EraDisplayOf(o, dtf).value];
    OptionsKeptByShorthands(o1, "eraDisplay");
    OptionsKeptByShorthands(o1, "locale");
  }

  lemma OptionsKeptByShorthands(o: Options, key: string)
    requires key in {"eraDisplay", "locale"}
    ensures Get(ExpandShorthands(o), key) == Get(o, key)
  {
  }

  /** The LDML contexts and width agree with the resolved options. */
  lemma ResolvedContextsAgree(intl: Intl, k: Clock, o: Options, dtf: Options, cal0: Option<Calendar>)
    requires Finish(intl, k, o, dtf, cal0).Success?
    ensures var f := Finish(intl, k, o, dtf, cal0).value;
            && (f.monthWidth.Some? <==> "month" in f.options)
            && (f.dayContext == "stand-alone" ==> f.monthContext == "stand-alone")
  {
    var f := Finish(intl, k, o, dtf, cal0).value;
    if f.dayContext == "stand-alone" {
      DayContextImpliesMonthContext(f.options);
    }
  }

  /** A constructed formatter's calendar passed the stringFormat and canvas
      checks. */
  lemma ResolvedCalendarChecked(intl: Intl, k: Clock, o: Options, dtf: Options, cal0: Option<Calendar>)
    requires Finish(intl, k, o, dtf, cal0).Success?
    ensures var f := Finish(intl, k, o, dtf, cal0).value;
            && (f.calendar.Some? <==> cal0.Some?)
            && (f.calendar.Some? ==> f.calendar.value.stringFormat.Some? && KnownStringFormat(f.calendar.value.stringFormat.value))
            && (f.calendar.Some? ==> !LunisolarCanvas(f.calendar.value.canvas))
            && (f.calendar.Some? && f.calendar.value.stringFormat == Some("fields") ==> RomanCanvas(f.calendar.value.canvas))
  {
  }

  /** The later steps keep the date fields of options without shorthands,
      apart from the 2-digit cascade. */
  lemma FinishKeepsFields(intl: Intl, k: Clock, o: Options, dtf: Options, cal0: Option<Calendar>)
    requires Finish(intl, k, o, dtf, cal0).Success?
    requires "timeStyle" !in o && "dateStyle" !in o
    ensures Finish(intl, k, o, dtf, cal0).value.options == Cascade(o["eraDisplay" := EraDisplayOf(o, dtf).value])
  {
  }

  /** The early steps keep what the caller asked for, with the default
      date fields when nothing was asked for. */
  lemma EarlyOptionsOfNothingAsked(intl: Intl, locale: string, asked: Options, param: CalendarParam)
    requires NoFieldAsked(asked) && "era" !in asked
    ensures var o := EarlyOptions(intl, locale, asked, param);
            && Get(o, "year") == Some("numeric") && Get(o, "month") == Some("numeric") && Get(o, "day") == Some("numeric")
            && "weekday" !in o && "hour" !in o && "minute" !in o && "second" !in o && "era" !in o
            && "timeStyle" !in o && "dateStyle" !in o
  {
    DefaultsOfNothingAsked(asked, param);
    NumericDefaultsKept(DefaultFields(AskedOptions(asked, param)), EarlyOptions(intl, locale, asked, param));
  }

  lemma DefaultsOfNothingAsked(asked: Options, param: CalendarParam)
    requires NoFieldAsked(asked) && "era" !in asked
    ensures var d := DefaultFields(AskedOptions(asked, param));
            && Get(d, "year") == Some("numeric") && Get(d, "month") == Some("numeric") && Get(d, "day") == Some("numeric")
            && "weekday" !in d && "hour" !in d && "minute" !in d && "second" !in d && "era" !in d
            && "timeStyle" !in d && "dateStyle" !in d
  {
    assert NoFieldAsked(AskedOptions(asked, param));
  }

  lemma NumericDefaultsKept(d: Options, o: Options)
    requires Get(d, "year") == Some("numeric") && Get(d, "month") == Some("numeric") && Get(d, "day") == Some("numeric")
    requires "weekday" !in d && "hour" !in d && "minute" !in d && "second" !in d && "era" !in d
    requires "timeStyle" !in d && "dateStyle" !in d
    requires forall key :: !ResolvedKey(key) ==> Get(o, key) == Get(d, key)
    ensures && Get(o, "year") == Some("numeric") && Get(o, "month") == Some("numeric") && Get(o, "day") == Some("numeric")
            && "weekday" !in o && "hour" !in o && "minute" !in o && "second" !in o && "era" !in o
            && "timeStyle" !in o && "dateStyle" !in o
  {
    assert !ResolvedKey("year") && !ResolvedKey("month") && !ResolvedKey("day") && !ResolvedKey("weekday");
    assert !ResolvedKey("hour") && !ResolvedKey("minute") && !ResolvedKey("second") && !ResolvedKey("era");
    assert !ResolvedKey("timeStyle") && !ResolvedKey("dateStyle");
    assert Get(o, "weekday") == Get(d, "weekday");
    assert Get(o, "hour") == Get(d, "hour");
    assert Get(o, "minute") == Get(d, "minute");
    assert Get(o, "second") == Get(d, "second");
    assert Get(o, "era") == Get(d, "era");
    assert Get(o, "timeStyle") == Get(d, "timeStyle");
    assert Get(o, "dateStyle") == Get(d, "dateStyle");
  }

  /** With no field and no shorthand asked for, the formatter shows year,
      month and day as numbers and asks for no weekday, no time field and
      no era. */
  lemma NothingAskedGivesNumericDate(intl: Intl, k: Clock, locale: string, asked: Options, param: CalendarParam)
    requires NoFieldAsked(asked) && "era" !in asked
    requires Resolve(intl, k, locale, asked, param).Success?
    ensures var f := Resolve(intl, k, locale, asked, param).value;
            && Get(f.options, "year") == Some("numeric")
            && Get(f.options, "month") == Some("numeric")
            && Get(f.options, "day") == Some("numeric")
            && "weekday" !in f.options && "hour" !in f.options && "minute" !in f.options
            && "second" !in f.options && "era" !in f.options
  {
    var o := EarlyOptions(intl, locale, asked, param);
    var dtf := ResolvedDtf(intl, locale, asked, param);
    EarlyOptionsOfNothingAsked(intl, locale, asked, param);
    FinishKeepsFields(intl, k, o, dtf, CustomOf(param));
  }

  /** The universal weekday keys of LDML, Sunday first. */
  function WeekdayKey(i: int): (key: Option<string>)
    ensures key.Some? <==> 0 <= i < 7
    ensures key.Some? ==> |key.value| == 3
    ensures i == 0 ==> key == Some("sun")
    ensures i == 6 ==> key == Some("sat")
  {
    At(["sun", "mon", "tue", "wed", "thu", "fri", "sat"], i)
  }

  /** The first index of a part of the given kind, or -1 (findIndex). */
  function FirstOfKind(parts: seq<Part>, kind: string): (i: int)
    ensures -1 <= i < |parts|
    ensures i >= 0 ==> parts[i].kind == kind && forall j :: 0 <= j < i ==> parts[j].kind != kind
    ensures i == -1 <==> forall j :: 0 <= j < |parts| ==> parts[j].kind != kind
  {
    if |parts| == 0 then -1
    else if parts[0].kind == kind then 0
    else var i := FirstOfKind(parts[1..], kind); if i == -1 then -1 else i + 1
  }

  /** The era of a built-in calendar date: the first era part of the
      standard format with year numeric and era short. */
  function BuiltInEra(f: Formatter, t: int): (era: Option<string>)
    ensures var parts := f.intl.formatToParts(f.locale, EraProbeOptions(f), t);
            && (era.None? <==> forall j :: 0 <= j < |parts| ==> parts[j].kind != "era")
            && (era.Some? ==> exists j :: 0 <= j < |parts| && parts[j] == Part("era", era.value)
                                           && forall i :: 0 <= i < j ==> parts[i].kind != "era")
  {
    var parts := f.intl.formatToParts(f.locale, EraProbeOptions(f), t);
    var i := FirstOfKind(parts, "era");
    if i >= 0 then Some(parts[i].value) else None
  }

  /** The options of the era probe: numeric year, short era, and the
      formatter's calendar. */
  function EraProbeOptions(f: Formatter): Options {
    Put(map["year" := "numeric", "era" := "short"], "calendar", Get(f.options, "calendar"))
  }

  /** The zone the formatter displays: the resolved timeZone option. */
  function ZoneOf(o: Options): string {
    Get(o, "timeZone").GetOr("")
  }

  /** The era of a custom calendar date, at the wall-clock time of the
      formatter's zone. */
  function CustomEra(f: Formatter, c: Calendar, t: int): (era: Option<string>)
    ensures ZoneOf(f.options) == "UTC" ==> era == c.fieldsFromCounter(t).era
    ensures ZoneOf(f.options) !in {"UTC", ""} ==>
              era == c.fieldsFromCounter(t - TZmsOffset(f.clock, ZoneOf(f.options), t)).era
  {
    c.fieldsFromCounter(ResolvedLocalCounter(f.clock, ZoneOf(f.options), t)).era
  }

  /** displayEra: whether the era of the date at t should be shown, "now"
      being the instant now. */
  function DisplayEra(f: Formatter, t: int, now: int): (show: bool)
    ensures Get(f.options, "eraDisplay") == Some("never") ==> !show
    ensures Get(f.options, "eraDisplay") == Some("always") ==>
              (show <==> !(f.calendar.Some? && f.calendar.value.eras.None?))
    ensures Get(f.options, "eraDisplay") == Some("auto") && show ==>
              ("year" in f.options || "era" in f.options) && !(f.calendar.Some? && f.calendar.value.eras.None?)
    ensures show ==> Get(f.options, "eraDisplay") in {Some("always"), Some("auto")}
  {
    match Get(f.options, "eraDisplay")
    case Some("never") => false
    case Some("always") => !(f.calendar.Some? && f.calendar.value.eras.None?)
    case Some("auto") =>
      if ("year" !in f.options && "era" !in f.options) || (f.calendar.Some? && f.calendar.value.eras.None?) then false
      else if f.calendar.None? then
        var era := BuiltInEra(f, t);
        era.Some? && BuiltInEra(f, now) != era
      else CustomEra(f, f.calendar.value, t) != CustomEra(f, f.calendar.value, now)
    case _ => false
  }

  /** In "auto" mode the era is never shown for a date in the current era;
      in particular never for the current date itself. */
  lemma AutoHidesCurrentEra(f: Formatter, t: int, now: int)
    requires Get(f.options, "eraDisplay") == Some("auto")
    requires f.calendar.None? ==> BuiltInEra(f, t) == BuiltInEra(f, now)
    requires f.calendar.Some? ==> CustomEra(f, f.calendar.value, t) == CustomEra(f, f.calendar.value, now)
    ensures !DisplayEra(f, t, now)
    ensures !DisplayEra(f, now, now)
  {
  }

  /** In "auto" mode, with a year or an era shown and a calendar that has
      eras, the era is shown for a date whose era differs from the era of
      now. */
  lemma AutoShowsOtherEra(f: Formatter, t: int, now: int)
    requires Get(f.options, "eraDisplay") == Some("auto")
    requires "year" in f.options || "era" in f.options
    requires !(f.calendar.Some? && f.calendar.value.eras.None?)
    requires f.calendar.None? ==> BuiltInEra(f, t).Some? && BuiltInEra(f, t) != BuiltInEra(f, now)
    requires f.calendar.Some? ==> CustomEra(f, f.calendar.value, t) != CustomEra(f, f.calendar.value, now)
    ensures DisplayEra(f, t, now)
  {
  }

  /** The fields formatToParts renders a custom date from: the calendar's
      fields and, when the calendar has them, its week fields. */
  datatype DateBag = DateBag(fields: Fields, week: Option<WeekFields>)

  function BagOf(c: Calendar, t: int): (b: DateBag)
    ensures b.fields == c.fieldsFromCounter(t)
    ensures b.week.Some? <==> c.weekFieldsFromCounter.Some?
  {
    DateBag(c.fieldsFromCounter(t),
            if c.weekFieldsFromCounter.Some? then Some(c.weekFieldsFromCounter.value(t)) else None)
  }

  /** The weekday field of the bag, undefined without week fields. */
  function BagWeekday(b: DateBag): Option<int> {
    if b.week.Some? then Some(b.week.value.weekday) else None
  }

  /** The field of the bag that has the same name as a part kind, as text;
      "" when there is none. Only era, month and weekday share their name
      with a part kind ("year" and "day" are rendered separately). */
  function BagText(b: DateBag, kind: string): (s: string)
    ensures kind !in {"era", "month", "weekday"} ==> s == ""
    ensures kind == "era" ==> s == b.fields.era.GetOr("")
    ensures kind == "month" ==> s == IntToString(b.fields.month)
    ensures kind == "weekday" ==> s == if b.week.Some? then IntToString(b.week.value.weekday) else ""
  {
    match kind
    case "era" => b.fields.era.GetOr("")
    case "month" => IntToString(b.fields.month)
    case "weekday" => if b.week.Some? then IntToString(b.week.value.weekday) else ""
    case _ => ""
  }

  /** What the per-field rendering works on: the formatter, its custom
      calendar, the options of this call and the date's fields. */
  datatype PartsContext = PartsContext(f: Formatter, cal: Calendar, options: Options, bag: DateBag)

  /** A number in the resolved locale's numerals, with at least n digits. */
  function Fig(f: Formatter, n: nat, x: int): string {
    f.intl.figure(f.locale, n, x)
  }

  /** A year in "field" and "pldr" modes: with "2-digit", a quote and two
      digits for a positive year and the whole year otherwise; with
      "numeric", the whole year; otherwise the part is left as it is. */
  function YearText(ctx: PartsContext, current: string): (s: string)
    ensures Get(ctx.options, "year") !in {Some("2-digit"), Some("numeric")} ==> s == current
    ensures Get(ctx.options, "year") == Some("2-digit") && ctx.bag.fields.year > 0 ==>
              s == "'" + Fig(ctx.f, 2, ctx.bag.fields.year % 100)
    ensures Get(ctx.options, "year") == Some("2-digit") && ctx.bag.fields.year <= 0 ==> s == Fig(ctx.f, 1, ctx.bag.fields.year)
    ensures Get(ctx.options, "year") == Some("numeric") ==> s == Fig(ctx.f, 1, ctx.bag.fields.year)
  {
    var year := ctx.bag.fields.year;
    match Get(ctx.options, "year")
    case Some("2-digit") => if year > 0 then "'" + Fig(ctx.f, 2, year % 100) else Fig(ctx.f, 1, year)
    case Some("numeric") => Fig(ctx.f, 1, year)
    case _ => current
  }

  function DayText(ctx: PartsContext, current: string): (s: string)
    ensures Get(ctx.options, "day") !in {Some("2-digit"), Some("numeric")} ==> s == current
    ensures Get(ctx.options, "day") == Some("2-digit") ==> s == Fig(ctx.f, 2, ctx.bag.fields.day)
    ensures Get(ctx.options, "day") == Some("numeric") ==> s == Fig(ctx.f, 1, ctx.bag.fields.day)
  {
    match Get(ctx.options, "day")
    case Some("2-digit") => Fig(ctx.f, 2, ctx.bag.fields.day)
    case Some("numeric") => Fig(ctx.f, 1, ctx.bag.fields.day)
    case _ => current
  }

  /** "list" mode: era names from source through the era codes, month and
      weekday names from source by number; a month asked as a number is
      shown as a number. Out-of-range indexes read undefined. */
  function ListText(ctx: PartsContext, pf: PartFormat, part: Part): (s: string)
    ensures part.kind == "era" ==>
              s == TextOr(At(pf.source, if ctx.bag.fields.era.Some? then IndexOf(pf.codes, ctx.bag.fields.era.value) else -1))
    ensures part.kind == "month" && Get(ctx.options, "month") !in {Some("2-digit"), Some("numeric")} ==>
              s == TextOr(At(pf.source, ctx.bag.fields.month - 1))
    ensures part.kind == "month" && Get(ctx.options, "month") == Some("2-digit") ==> s == Fig(ctx.f, 2, ctx.bag.fields.month)
    ensures part.kind == "month" && Get(ctx.options, "month") == Some("numeric") ==> s == Fig(ctx.f, 1, ctx.bag.fields.month)
    ensures part.kind == "weekday" && ctx.bag.week.Some? ==> s == TextOr(At(pf.source, ctx.bag.week.value.weekday - 1))
    ensures part.kind == "weekday" && ctx.bag.week.None? ==> s == "undefined"
    ensures part.kind !in {"era", "month", "weekday"} ==> s == part.value
  {
    match part.kind
    case "era" =>
      TextOr(At(pf.source, if ctx.bag.fields.era.Some? then IndexOf(pf.codes, ctx.bag.fields.era.value) else -1))
    case "month" =>
      (match Get(ctx.options, "month")
       case Some("2-digit") => Fig(ctx.f, 2, ctx.bag.fields.month)
       case Some("numeric") => Fig(ctx.f, 1, ctx.bag.fields.month)
       case _ => TextOr(At(pf.source, ctx.bag.fields.month - 1)))
    case "weekday" =>
      if ctx.bag.week.Some? then TextOr(At(pf.source, ctx.bag.week.value.weekday - 1)) else "undefined"
    case _ => part.value
  }

  /** A list whose codes are the calendar's era codes in order renders the
      era with the name at the same position. */
  lemma ListEraByPosition(ctx: PartsContext, pf: PartFormat, part: Part, i: nat)
    requires part.kind == "era"
    requires i < |pf.codes| && i < |pf.source|
    requires ctx.bag.fields.era == Some(pf.codes[i])
    requires forall j :: 0 <= j < i ==> pf.codes[j] != pf.codes[i]
    ensures ListText(ctx, pf, part) == pf.source[i]
  {
    assert pf.codes[i] in pf.codes;
    var k := IndexOf(pf.codes, pf.codes[i]);
    assert k == i;
  }

  /** The private locale data repository's answer: the language-specific
      name when there is one, the international name otherwise. */
  function PldrFetch(ctx: PartsContext, q: PldrQuery): (r: Result<string>)
    ensures ctx.cal.pldr.None? ==> r.Failure? && r.error.TypeError?
    ensures ctx.cal.pldr.Some? ==>
              && r.Success?
              && r.value == (if ctx.cal.pldr.value.languageSpecific(ctx.f.lang, q) != ""
                             then ctx.cal.pldr.value.languageSpecific(ctx.f.lang, q)
                             else ctx.cal.pldr.value.international(q))
  {
    if ctx.cal.pldr.None? then Failure(TypeError("no private locale data repository"))
    else
      var specific := ctx.cal.pldr.value.languageSpecific(ctx.f.lang, q);
      Success(if specific != "" then specific else ctx.cal.pldr.value.international(q))
  }

  /** LDML era widths for the era option. */
  function EraSelector(option: Option<string>): (selector: string)
    ensures option == Some("long") ==> selector == "eraNames"
    ensures option == Some("short") ==> selector == "eraAbbr"
    ensures option == Some("narrow") ==> selector == "eraNarrow"
    ensures selector == "" <==> option !in {Some("long"), Some("short"), Some("narrow")}
  {
    match option
    case Some("long") => "eraNames"
    case Some("short") => "eraAbbr"
    case Some("narrow") => "eraNarrow"
    case _ => ""
  }

  /** LDML day widths for the weekday option, in the given context. */
  function DaySelector(option: Option<string>, context: string): (w: string)
    ensures option == Some("long") ==> w == "wide"
    ensures option == Some("short") ==> w == (if context == "format" then "abbreviated" else "short")
    ensures option == Some("narrow") ==> w == (if context == "format" then "short" else "narrow")
    ensures w == "" <==> option !in {Some("long"), Some("short"), Some("narrow")}
    ensures w in {"wide", "abbreviated", "short", "narrow", ""}
  {
    match option
    case Some("long") => "wide"
    case Some("short") => if context == "format" then "abbreviated" else "short"
    case Some("narrow") => if context == "format" then "short" else "narrow"
    case _ => ""
  }

  /** The repository key of the weekday: the calendar's own key function,
      or the universal Sunday-first key. */
  function WeekdayQueryKey(ctx: PartsContext, pf: PartFormat): string {
    if pf.key.Some? then pf.key.value(BagWeekday(ctx.bag))
    else if ctx.bag.week.Some? then TextOr(WeekdayKey(ctx.bag.week.value.weekday))
    else "undefined"
  }

  /** A month name from the repository, or the month number when none is
      found. */
  function PldrMonth(ctx: PartsContext): (r: Result<string>)
    ensures r.Success? <==> ctx.cal.pldr.Some?
    ensures r.Success? ==>
              var name := PldrFetch(ctx, MonthQuery(ctx.cal.id, ctx.f.monthContext, TextOr(ctx.f.monthWidth), ctx.bag.fields.month)).value;
              && (name != "" ==> r.value == name)
              && (name == "" ==> r.value == Fig(ctx.f, if Get(ctx.options, "month") == Some("2-digit") then 2 else 1, ctx.bag.fields.month))
  {
    var name :- PldrFetch(ctx, MonthQuery(ctx.cal.id, ctx.f.monthContext, TextOr(ctx.f.monthWidth), ctx.bag.fields.month));
    if name == "" then
      Success(Fig(ctx.f, if Get(ctx.options, "month") == Some("2-digit") then 2 else 1, ctx.bag.fields.month))
    else Success(name)
  }

  /** "pldr" mode. */
  function PldrText(ctx: PartsContext, pf: PartFormat, part: Part): (r: Result<string>)
    ensures part.kind !in {"era", "year", "month", "day", "weekday", "hour", "minute", "second"} ==>
              r.Failure? && r.error.RangeError?
    ensures part.kind in {"hour", "minute", "second"} ==>
              if Get(ctx.options, part.kind) == Some("numeric") then r.Failure? && r.error.TypeError?
              else r == Success(part.value)
    ensures part.kind == "weekday" && ctx.cal.pldr.Some? ==>
              r.Success? && r == PldrFetch(ctx, DayQuery(ctx.cal.id, ctx.f.dayContext,
                                                         DaySelector(Get(ctx.options, "weekday"), ctx.f.dayContext),
                                                         WeekdayQueryKey(ctx, pf)))
    ensures part.kind == "weekday" && ctx.cal.pldr.None? ==> r.Failure? && r.error.TypeError?
    ensures part.kind == "era" && ctx.cal.eras.None? ==> r.Failure? && r.error.TypeError?
    ensures part.kind == "era" && ctx.cal.eras.Some? ==>
              r == PldrFetch(ctx, EraQuery(ctx.cal.id, EraSelector(Get(ctx.options, "era")),
                                           if ctx.bag.fields.era.Some? then IndexOf(ctx.cal.eras.value, ctx.bag.fields.era.value) else -1))
    ensures part.kind == "year" ==> r == Success(YearText(ctx, part.value))
    ensures part.kind == "month" ==> r == PldrMonth(ctx)
    ensures part.kind == "day" ==> r == Success(DayText(ctx, part.value))
  {
    match part.kind
    case "era" =>
      if ctx.cal.eras.None? then Failure(TypeError("the calendar has no eras"))
      else
        var index := if ctx.bag.fields.era.Some? then IndexOf(ctx.cal.eras.value, ctx.bag.fields.era.value) else -1;
        PldrFetch(ctx, EraQuery(ctx.cal.id, EraSelector(Get(ctx.options, "era")), index))
    case "year" => Success(YearText(ctx, part.value))
    case "month" => PldrMonth(ctx)
    case "day" => Success(DayText(ctx, part.value))
    case "weekday" =>
      PldrFetch(ctx, DayQuery(ctx.cal.id, ctx.f.dayContext, DaySelector(Get(ctx.options, "weekday"), ctx.f.dayContext),
                              WeekdayQueryKey(ctx, pf)))
    case _ =>
      if part.kind in {"hour", "minute", "second"} then
        // the standard time parts are searched with indexOf(predicate), which
        // finds nothing: reading the part at index -1 throws
        if Get(ctx.options, part.kind) == Some("numeric") then Failure(TypeError("tparts[-1] is undefined"))
        else Success(part.value)
      else Failure(RangeError("Unknown date field"))
  }

  /** The value of one part after the calendar's partsFormat. */
  function FormatPart(ctx: PartsContext, part: Part): (r: Result<string>)
    ensures part.kind !in ctx.cal.partsFormat ==> r == Success(part.value)
    ensures part.kind in ctx.cal.partsFormat && ctx.cal.partsFormat[part.kind].mode != "pldr" ==> r.Success?
    ensures part.kind in ctx.cal.partsFormat && !KnownPartsMode(ctx.cal.partsFormat[part.kind].mode) ==> r == Success(part.value)
    ensures part.kind in ctx.cal.partsFormat && ctx.cal.partsFormat[part.kind].mode == "cldr" ==> r == Success(part.value)
    ensures part.kind in ctx.cal.partsFormat && ctx.cal.partsFormat[part.kind].mode == "field" ==>
              r == Success(if part.kind == "year" then YearText(ctx, part.value)
                           else if part.kind == "day" then DayText(ctx, part.value)
                           else BagText(ctx.bag, part.kind))
    ensures part.kind in ctx.cal.partsFormat && ctx.cal.partsFormat[part.kind].mode == "list" ==>
              r == Success(ListText(ctx, ctx.cal.partsFormat[part.kind], part))
    ensures part.kind in ctx.cal.partsFormat && ctx.cal.partsFormat[part.kind].mode == "pldr" ==>
              r == PldrText(ctx, ctx.cal.partsFormat[part.kind], part)
  {
    if part.kind !in ctx.cal.partsFormat then Success(part.value)
    else
      var pf := ctx.cal.partsFormat[part.kind];
      match pf.mode
      case "cldr" => Success(part.value)
      case "field" =>
        (match part.kind
         case "year" => Success(YearText(ctx, part.value))
         case "day" => Success(DayText(ctx, part.value))
         case _ => Success(BagText(ctx.bag, part.kind)))
      case "list" => Success(ListText(ctx, pf, part))
      case "pldr" => PldrText(ctx, pf, part)
      case _ => Success(part.value)
  }

  /** Scenario of a calendar with its own weekday keys: the repository is
      asked with the calendar's key for the weekday, not the universal
      Sunday-first key. */
  lemma PldrWeekdayUsesCalendarKey(ctx: PartsContext, part: Part, w: int)
    requires part.kind == "weekday" && "weekday" in ctx.cal.partsFormat
    requires ctx.cal.partsFormat["weekday"].mode == "pldr" && ctx.cal.partsFormat["weekday"].key.Some?
    requires ctx.cal.pldr.Some? && ctx.bag.week.Some? && ctx.bag.week.value.weekday == w
    ensures FormatPart(ctx, part) ==
              PldrFetch(ctx, DayQuery(ctx.cal.id, ctx.f.dayContext,
                                      DaySelector(Get(ctx.options, "weekday"), ctx.f.dayContext),
                                      ctx.cal.partsFormat["weekday"].key.value(Some(w))))
  {
  }

  /** The per-part pass: every part keeps its kind and gets its rendered
      value; the first part that throws stops the pass. */
  function Dispatch(ctx: PartsContext, parts: seq<Part>): (r: Result<seq<Part>>)
    ensures r.Success? <==> forall i :: 0 <= i < |parts| ==> FormatPart(ctx, parts[i]).Success?
    ensures r.Success? ==>
              && |r.value| == |parts|
              && forall i :: 0 <= i < |parts| ==> r.value[i] == Part(parts[i].kind, FormatPart(ctx, parts[i]).value)
    ensures r.Failure? ==>
              exists i :: && 0 <= i < |parts| && FormatPart(ctx, parts[i]).Failure?
                          && r.error == FormatPart(ctx, parts[i]).error
                          && forall j :: 0 <= j < i ==> FormatPart(ctx, parts[j]).Success?
  {
    if |parts| == 0 then Success([])
    else
      var v :- FormatPart(ctx, parts[0]);
      var rest := Dispatch(ctx, parts[1..]);
      if rest.Failure? then
        assert exists i :: 0 <= i < |parts[1..]| && FormatPart(ctx, parts[1..][i]).Failure? &&
                 rest.error == FormatPart(ctx, parts[1..][i]).error &&
                 forall j :: 0 <= j < i ==> FormatPart(ctx, parts[1..][j]).Success?;
        var i :| 0 <= i < |parts[1..]| && FormatPart(ctx, parts[1..][i]).Failure? &&
                 rest.error == FormatPart(ctx, parts[1..][i]).error &&
                 forall j :: 0 <= j < i ==> FormatPart(ctx, parts[1..][j]).Success?;
        assert parts[1..][i] == parts[i + 1];
        assert forall j :: 0 <= j < i + 1 ==> FormatPart(ctx, parts[j]).Success? by {
          forall j | 0 <= j < i + 1
            ensures FormatPart(ctx, parts[j]).Success?
          {
            if j > 0 { assert parts[j] == parts[1..][j - 1]; }
          }
        }
        rest.PropagateFailure()
      else
        assert forall i :: 1 <= i < |parts| ==> parts[i] == parts[1..][i - 1];
        Success([Part(parts[0].kind, v)] + rest.value)
  }

  /** The forEach over the parts, overwriting each part's value in place. */
  method DispatchInPlace(ctx: PartsContext, parts: seq<Part>) returns (r: Result<seq<Part>>)
    ensures r == Dispatch(ctx, parts)
  {
    var ps := parts;
    for i := 0 to |ps|
      invariant |ps| == |parts|
      invariant forall j :: 0 <= j < i ==>
                  && FormatPart(ctx, parts[j]).Success?
                  && ps[j] == Part(parts[j].kind, FormatPart(ctx, parts[j]).value)
      invariant forall j :: i <= j < |ps| ==> ps[j] == parts[j]
    {
      var v := FormatPart(ctx, ps[i]);
      if v.Failure? {
        var d := Dispatch(ctx, parts);
        assert d.Failure?;
        var i' :| 0 <= i' < |parts| && FormatPart(ctx, parts[i']).Failure? &&
                  d.error == FormatPart(ctx, parts[i']).error &&
                  forall j :: 0 <= j < i' ==> FormatPart(ctx, parts[j]).Success?;
        assert i' == i;
        assert d == Failure(v.error);
        return v.PropagateFailure();
      }
      ps := ps[i := Part(ps[i].kind, v.value)];
    }
    var d := Dispatch(ctx, parts);
    assert d.Success? && |d.value| == |ps|;
    assert forall j :: 0 <= j < |ps| ==> ps[j] == d.value[j];
    assert ps == d.value;
    r := Success(ps);
  }

  /** The locales written right to left, whose parts keep the standard
      widths. */
  predicate RightToLeft(locale: string)
    ensures RightToLeft(locale) <==> |locale| >= 2 && locale[..2] in {"ar", "fa", "he", "ji", "ug", "ur", "yi"}
  {
    Prefix(locale, 2) in {"ar", "fa", "he", "ji", "ug", "ur", "yi"}
  }

  predicate NumericAsked(o: Options, kind: string) {
    Get(o, kind) == Some("numeric")
  }

  /** The value a part receives from the step on the part before it: the
      ":" or "." after a numeric hour or minute becomes " h " or " min ", the
      " " after a numeric second becomes " s ". */
  function AfterNeighbour(o: Options, prev: Part, v: string): (s: string)
    ensures s != v ==> NumericAsked(o, prev.kind) && prev.kind in {"hour", "minute", "second"}
    ensures NumericAsked(o, prev.kind) && prev.kind == "hour" && v in {":", "."} ==> s == " h "
    ensures NumericAsked(o, prev.kind) && prev.kind == "minute" && v in {":", "."} ==> s == " min "
    ensures NumericAsked(o, prev.kind) && prev.kind == "second" && v == " " ==> s == " s "
  {
    if !NumericAsked(o, prev.kind) then v
    else if (prev.kind == "hour" || prev.kind == "minute") && (v == ":" || v == ".") then
      (if prev.kind == "hour" then " h " else " min ")
    else if prev.kind == "second" && v == " " then " s "
    else v
  }

  /** A numeric-asked part whose text is a number is written again with one
      digit at least. */
  function Renumbered(f: Formatter, o: Options, kind: string, v: string): (s: string)
    ensures !NumericAsked(o, kind) ==> s == v
    ensures NumericAsked(o, kind) ==> s == f.intl.renumber(f.locale, v).GetOr(v)
  {
    if NumericAsked(o, kind) && f.intl.renumber(f.locale, v).Some? then f.intl.renumber(f.locale, v).value else v
  }

  /** The value of the part at j once the step on the part before it has
      run. */
  function Pending(o: Options, parts: seq<Part>, j: nat): string
    requires j < |parts|
  {
    if j > 0 then AfterNeighbour(o, parts[j - 1], parts[j].value) else parts[j].value
  }

  /** The value of the part at j after the width correction. */
  function CorrectedValue(f: Formatter, o: Options, parts: seq<Part>, j: nat): string
    requires j < |parts|
  {
    Renumbered(f, o, parts[j].kind, Pending(o, parts, j))
  }

  /** The literal appended after a numeric second that ends the parts. */
  function SecondSuffix(o: Options, parts: seq<Part>): (s: seq<Part>)
    ensures |s| <= 1
    ensures |s| == 1 <==> |parts| > 0 && parts[|parts| - 1].kind == "second" && NumericAsked(o, "second")
    ensures |s| == 1 ==> s[0] == Part("literal", " s")
  {
    if |parts| > 0 && parts[|parts| - 1].kind == "second" && NumericAsked(o, "second") then [Part("literal", " s")] else []
  }

  /** The width correction of the parts, as a whole: skipped for right to
      left locales; otherwise every part keeps its kind and gets its
      corrected value, and " s" may be appended. */
  function CorrectWidths(f: Formatter, o: Options, parts: seq<Part>): (r: seq<Part>)
    ensures RightToLeft(f.locale) ==> r == parts
    ensures |parts| <= |r| <= |parts| + 1
    ensures forall j :: 0 <= j < |parts| ==> r[j].kind == parts[j].kind
    ensures !RightToLeft(f.locale) ==> r[|parts|..] == SecondSuffix(o, parts)
    ensures !RightToLeft(f.locale) ==> forall j :: 0 <= j < |parts| ==> r[j].value == CorrectedValue(f, o, parts, j)
  {
    if RightToLeft(f.locale) then parts
    else seq(|parts|, j requires 0 <= j < |parts| => Part(parts[j].kind, CorrectedValue(f, o, parts, j))) + SecondSuffix(o, parts)
  }

  /** One call of the forEach callback on the parts r at index i: a
      numeric-asked part is written again in one digit at least, and the
      literal after it is replaced, or " s" is pushed after a final second. */
  function WidthStep(f: Formatter, o: Options, r: seq<Part>, i: nat): (r': seq<Part>)
    requires i < |r|
    ensures |r| <= |r'| <= |r| + 1
    ensures forall j :: 0 <= j < |r| ==> r'[j].kind == r[j].kind
  {
    var item := r[i];
    if !NumericAsked(o, item.kind) then r
    else
      var number := f.intl.renumber(f.locale, item.value);
      var r1 := if number.Some? then r[i := Part(item.kind, number.value)] else r;
      if item.kind == "hour" || item.kind == "minute" then
        if i + 1 < |r1| && (r1[i + 1].value == ":" || r1[i + 1].value == ".") then
          r1[i + 1 := Part(r1[i + 1].kind, if item.kind == "hour" then " h " else " min ")]
        else r1
      else if item.kind == "second" then
        if i + 1 < |r1| then
          if r1[i + 1].value == " " then r1[i + 1 := Part(r1[i + 1].kind, " s ")] else r1
        else r1 + [Part("literal", " s")]
      else r1
  }

  /** The parts after the callback has run on the first i of them. */
  function Processed(f: Formatter, o: Options, parts: seq<Part>, i: nat): (r: seq<Part>)
    requires i <= |parts|
    ensures |r| == |parts| + (if i == |parts| then |SecondSuffix(o, parts)| else 0)
  {
    seq(|parts|, j requires 0 <= j < |parts| =>
          if j < i then Part(parts[j].kind, CorrectedValue(f, o, parts, j))
          else if j == i then Part(parts[j].kind, Pending(o, parts, j))
          else parts[j])
    + (if i == |parts| then SecondSuffix(o, parts) else [])
  }

  lemma ProcessedNone(f: Formatter, o: Options, parts: seq<Part>)
    ensures Processed(f, o, parts, 0) == parts
  {
    if |parts| > 0 {
      assert Processed(f, o, parts, 0)[0] == parts[0];
    }
  }

  lemma ProcessedAll(f: Formatter, o: Options, parts: seq<Part>)
    requires !RightToLeft(f.locale)
    ensures Processed(f, o, parts, |parts|) == CorrectWidths(f, o, parts)
  {
  }

  /** Each call of the callback advances the processed prefix by one. */
  lemma WidthStepAdvances(f: Formatter, o: Options, parts: seq<Part>, i: nat)
    requires i < |parts|
    ensures WidthStep(f, o, Processed(f, o, parts, i), i) == Processed(f, o, parts, i + 1)
  {
    var p := Processed(f, o, parts, i);
    var q := Processed(f, o, parts, i + 1);
    var w := WidthStep(f, o, p, i);
    var n := |parts|;
    assert p[i] == Part(parts[i].kind, Pending(o, parts, i));
    assert q[i] == Part(parts[i].kind, CorrectedValue(f, o, parts, i));
    assert w[i] == q[i];
    if i + 1 < n {
      assert p[i + 1] == parts[i + 1];
      assert q[i + 1] == Part(parts[i + 1].kind, AfterNeighbour(o, parts[i], parts[i + 1].value));
      assert w[i + 1] == q[i + 1];
      assert |w| == |q|;
      forall j | 0 <= j < |w|
        ensures w[j] == q[j]
      {
        if j != i && j != i + 1 {
          assert w[j] == p[j];
        }
      }
    } else {
      assert |w| == |q|;
      forall j | 0 <= j < |w|
        ensures w[j] == q[j]
      {
        if j < i {
          assert w[j] == p[j];
        }
      }
    }
  }

  /** The forEach of the width correction, rewriting the parts in place; the
      " s" pushed during the last call is not visited. */
  method CorrectWidthsInPlace(f: Formatter, o: Options, parts: seq<Part>) returns (r: seq<Part>)
    ensures r == CorrectWidths(f, o, parts)
  {
    r := parts;
    if RightToLeft(f.locale) {
      return;
    }
    ProcessedNone(f, o, parts);
    for i := 0 to |parts|
      invariant r == Processed(f, o, parts, i)
    {
      WidthStepAdvances(f, o, parts, i);
      r := WidthStep(f, o, r, i);
    }
    ProcessedAll(f, o, parts);
  }

  /** In a left-to-right locale, the separator after a numeric hour becomes
      " h ", and a numeric second ending the parts is followed by " s". */
  lemma WidthCorrectionLiterals(f: Formatter, o: Options, parts: seq<Part>, i: nat)
    requires !RightToLeft(f.locale) && i + 1 < |parts|
    requires parts[i].kind in {"hour", "minute"} && NumericAsked(o, parts[i].kind)
    requires parts[i + 1].value in {":", "."} && !NumericAsked(o, parts[i + 1].kind)
    ensures CorrectWidths(f, o, parts)[i + 1] == Part(parts[i + 1].kind, if parts[i].kind == "hour" then " h " else " min ")
  {
    var v := AfterNeighbour(o, parts[i], parts[i + 1].value);
    assert Pending(o, parts, i + 1) == v;
    assert CorrectedValue(f, o, parts, i + 1) == v;
  }

  /** The number of parts of a kind. */
  function CountKind(parts: seq<Part>, kind: string): nat {
    if |parts| == 0 then 0 else (if parts[0].kind == kind then 1 else 0) + CountKind(parts[1..], kind)
  }

  lemma {:induction false} CountKindAppend(a: seq<Part>, b: seq<Part>, kind: string)
    ensures CountKind(a + b, kind) == CountKind(a, kind) + CountKind(b, kind)
  {
    if |a| == 0 {
      assert a + b == b;
    } else {
      assert (a + b)[1..] == a[1..] + b;
      CountKindAppend(a[1..], b, kind);
    }
  }

  /** The parts other than literals and eras, in order. */
  function Essential(parts: seq<Part>): seq<Part> {
    if |parts| == 0 then []
    else (if parts[0].kind in {"literal", "era"} then [] else [parts[0]]) + Essential(parts[1..])
  }

  lemma {:induction false} EssentialAppend(a: seq<Part>, b: seq<Part>)
    ensures Essential(a + b) == Essential(a) + Essential(b)
  {
    if |a| == 0 {
      assert a + b == b;
    } else {
      assert (a + b)[1..] == a[1..] + b;
      EssentialAppend(a[1..], b);
    }
  }

  /** The neighbour of the part at n that the suppression looks at: the
      one before it, or the one after it when n is first. */
  function Neighbour(n: nat): nat {
    if n > 0 then n - 1 else n + 1
  }

  /** The parts once the part at n is cut out, with its neighbour when that
      neighbour is a literal. */
  function CutAt(parts: seq<Part>, n: nat): seq<Part>
    requires n < |parts| && Neighbour(n) < |parts|
  {
    var nn := Neighbour(n);
    if parts[nn].kind == "literal" then
      var lo := if n < nn then n else nn;
      parts[..lo] + parts[lo + 2..]
    else parts[..n] + parts[n + 1..]
  }

  /** The era part suppression: the first era part goes, with the part
      next to it (before it, or after it when the era comes first) when
      that part is a literal. An era alone in the parts has no neighbour,
      and reading it throws. */
  function SuppressEra(parts: seq<Part>): (r: Result<seq<Part>>)
    ensures r.Failure? <==> |parts| == 1 && parts[0].kind == "era"
    ensures r.Failure? ==> r.error.TypeError?
    ensures FirstOfKind(parts, "era") == -1 ==> r == Success(parts)
  {
    var n := FirstOfKind(parts, "era");
    if n < 0 then Success(parts)
    else if Neighbour(n) >= |parts| then Failure(TypeError("the era part has no neighbour"))
    else Success(CutAt(parts, n))
  }

  /** Suppression removes the first era part and, when the part next to
      it (before it, or after it when the era comes first) is a literal,
      that literal too: every part before the pair keeps its place, a
      neighbour that is not a literal stays, and every part after the pair
      follows in order. */
  lemma {:induction false} SuppressEraProperties(parts: seq<Part>)
    requires FirstOfKind(parts, "era") >= 0 && SuppressEra(parts).Success?
    ensures var r := SuppressEra(parts).value;
            var n := FirstOfKind(parts, "era");
            var nn := if n > 0 then n - 1 else n + 1;
            var lo := if n < nn then n else nn;
            && nn < |parts| && |parts| - 2 <= |r| <= |parts| - 1
            && r[..lo] == parts[..lo]
            && r[lo..] == (if parts[nn].kind == "literal" then [] else [parts[nn]]) + parts[lo + 2..]
            && CountKind(r, "era") == CountKind(parts, "era") - 1
            && CountKind(r, "literal") == CountKind(parts, "literal") - (if parts[nn].kind == "literal" then 1 else 0)
            && Essential(r) == Essential(parts)
  {
    SuppressEraIsCut(parts);
    var n := FirstOfKind(parts, "era");
    CutShape(parts, n);
    CutCounts(parts, n);
  }

  lemma SuppressEraIsCut(parts: seq<Part>)
    requires FirstOfKind(parts, "era") >= 0 && SuppressEra(parts).Success?
    ensures var n := FirstOfKind(parts, "era");
            && parts[n].kind == "era" && Neighbour(n) < |parts|
            && SuppressEra(parts).value == CutAt(parts, n)
  {
  }

  /** Where the parts go: everything before the pair is kept in place, a
      neighbour that is not a literal stays, and the rest follows. */
  lemma {:induction false} CutShape(parts: seq<Part>, n: nat)
    requires n < |parts| && Neighbour(n) < |parts|
    ensures var r := CutAt(parts, n);
            var nn := Neighbour(n);
            var lo := if n < nn then n else nn;
            && |parts| - 2 <= |r| <= |parts| - 1
            && r[..lo] == parts[..lo]
            && r[lo..] == (if parts[nn].kind == "literal" then [] else [parts[nn]]) + parts[lo + 2..]
  {
    var nn := Neighbour(n);
    var lo := if n < nn then n else nn;
    var r := CutAt(parts, n);
    if parts[nn].kind != "literal" {
      assert r == parts[..n] + parts[n + 1..];
      assert r[lo..] == [parts[nn]] + parts[lo + 2..];
    }
  }

  /** What cutting out an era does to the counts of eras and literals. */
  lemma {:induction false} CutCounts(parts: seq<Part>, n: nat)
    requires n < |parts| && Neighbour(n) < |parts| && parts[n].kind == "era"
    ensures var r := CutAt(parts, n);
            && CountKind(r, "era") == CountKind(parts, "era") - 1
            && CountKind(r, "literal") == CountKind(parts, "literal") - (if parts[Neighbour(n)].kind == "literal" then 1 else 0)
            && Essential(r) == Essential(parts)
  {
    var nn := Neighbour(n);
    var lo := if n < nn then n else nn;
    if parts[nn].kind == "literal" {
      var p1 := Without(parts, lo);
      RemoveOne(parts, lo);
      assert p1[lo] == parts[lo + 1];
      RemoveOne(p1, lo);
      assert p1[..lo] == parts[..lo];
      assert p1[lo + 1..] == parts[lo + 2..];
      assert CutAt(parts, n) == Without(p1, lo);
    } else {
      RemoveOne(parts, n);
    }
  }

  /** The parts without the one at m (splice(m, 1)). */
  function Without(parts: seq<Part>, m: nat): seq<Part>
    requires m < |parts|
  {
    parts[..m] + parts[m + 1..]
  }

  /** Removing one part lowers the count of its kind by one and keeps the
      other counts; removing a literal or an era keeps the other parts. */
  lemma RemoveOne(parts: seq<Part>, m: nat)
    requires m < |parts|
    ensures |Without(parts, m)| == |parts| - 1
    ensures CountKind(Without(parts, m), "era") == CountKind(parts, "era") - (if parts[m].kind == "era" then 1 else 0)
    ensures CountKind(Without(parts, m), "literal") == CountKind(parts, "literal") - (if parts[m].kind == "literal" then 1 else 0)
    ensures parts[m].kind in {"literal", "era"} ==> Essential(Without(parts, m)) == Essential(parts)
  {
    var a, b := parts[..m], parts[m + 1..];
    assert parts == a + [parts[m]] + b;
    CountKindAppend(a + [parts[m]], b, "era");
    CountKindAppend(a, [parts[m]], "era");
    CountKindAppend(a, b, "era");
    CountKindAppend(a + [parts[m]], b, "literal");
    CountKindAppend(a, [parts[m]], "literal");
    CountKindAppend(a, b, "literal");
    EssentialAppend(a + [parts[m]], b);
    EssentialAppend(a, [parts[m]]);
    EssentialAppend(a, b);
    assert [parts[m]][1..] == [];
  }

  /** With at most one era part, suppression leaves none. */
  lemma SuppressEraRemovesTheEra(parts: seq<Part>)
    requires CountKind(parts, "era") <= 1 && SuppressEra(parts).Success?
    ensures CountKind(SuppressEra(parts).value, "era") == 0
  {
    if FirstOfKind(parts, "era") >= 0 {
      SuppressEraProperties(parts);
    } else {
      NoEraCountsZero(parts);
    }
  }

  /** Suppression removes one era when there is one, and keeps every part
      other than eras and literals, in order. */
  lemma SuppressEraCount(parts: seq<Part>)
    ensures SuppressEra(parts).Success? ==>
              var n := CountKind(parts, "era");
              CountKind(SuppressEra(parts).value, "era") == if n == 0 then 0 else n - 1
    ensures SuppressEra(parts).Success? ==> Essential(SuppressEra(parts).value) == Essential(parts)
  {
    if SuppressEra(parts).Success? {
      if FirstOfKind(parts, "era") >= 0 {
        SuppressEraProperties(parts);
      } else {
        NoEraCountsZero(parts);
      }
    }
  }

  lemma {:induction false} NoEraCountsZero(parts: seq<Part>)
    requires FirstOfKind(parts, "era") == -1
    ensures CountKind(parts, "era") == 0
  {
    if |parts| > 0 {
      assert forall j :: 0 <= j < |parts[1..]| ==> parts[1..][j] == parts[j + 1];
      NoEraCountsZero(parts[1..]);
    }
  }

  /** Parts of the same kinds, in the same order, count the same. */
  lemma {:induction false} SameKindsSameCount(a: seq<Part>, b: seq<Part>, kind: string)
    requires |a| == |b| && forall j :: 0 <= j < |a| ==> a[j].kind == b[j].kind
    ensures CountKind(a, kind) == CountKind(b, kind)
  {
    if |a| > 0 {
      SameKindsSameCount(a[1..], b[1..], kind);
    }
  }

  /** The options of one formatToParts call: without the era when it is not
      to be shown, with a short era when it is and none was asked for. */
  function CallOptions(f: Formatter, show: bool): (o: Options)
    ensures !show ==> "era" !in o
    ensures show ==> Get(o, "era") == Some(Get(f.options, "era").GetOr("short"))
    ensures forall key :: key != "era" ==> Get(o, key) == Get(f.options, key)
  {
    if !show then f.options - {"era"}
    else if "era" !in f.options then f.options["era" := "short"]
    else f.options
  }

  /** The first part of a kind gets a new value, when there is one. */
  function SetFirst(parts: seq<Part>, kind: string, v: string): (r: seq<Part>)
    ensures |r| == |parts| && forall j :: 0 <= j < |parts| ==> r[j].kind == parts[j].kind
    ensures FirstOfKind(parts, kind) >= 0 ==> r[FirstOfKind(parts, kind)] == Part(kind, v)
    ensures forall j :: 0 <= j < |parts| && j != FirstOfKind(parts, kind) ==> r[j] == parts[j]
  {
    var i := FirstOfKind(parts, kind);
    if i >= 0 then parts[i := Part(kind, v)] else parts
  }

  /** stringFormat "fields": the canvas formats the first day of the
      calendar's month in the calendar's year as a Gregorian date in UTC;
      the weekday is that of the date itself, the day its number in the
      calendar, and the zone name the one of the first pass. */
  function FieldsParts(ctx: PartsContext, abs: int, zoneName: Option<string>): (r: Result<seq<Part>>)
    ensures r.Failure? ==> r.error.TypeError? && zoneName.Some?
  {
    var f := ctx.f;
    var k := f.clock;
    var o := ctx.options["timeZone" := "UTC"];
    var c := k.utcCivil(abs);
    var shift := k.utcTime(c.(year := ctx.bag.fields.fullYear, month := ctx.bag.fields.month - 1, date := 1));
    var weekdayOptions := Put(Put(map["timeZone" := "UTC"], "calendar", Get(ctx.options, "calendar")), "weekday", Get(ctx.options, "weekday"));
    var weekday := f.intl.format(f.locale, weekdayOptions, abs);
    var parts := f.intl.formatToParts(f.locale, o, shift);
    var withWeekday := SetFirst(parts, "weekday", weekday);
    var day := Fig(f, if Get(ctx.options, "day") == Some("2-digit") then 2 else 1, ctx.bag.fields.day);
    var withDay := SetFirst(withWeekday, "day", day);
    if zoneName.None? then Success(withDay)
    else if FirstOfKind(withDay, "timeZoneName") < 0 then Failure(TypeError("no time zone part to set"))
    else Success(SetFirst(withDay, "timeZoneName", zoneName.value))
  }

  /** The parts before the per-field pass, the options in force, and the
      date's fields when the calendar is custom. */
  datatype FirstPass = FirstPass(parts: seq<Part>, options: Options, ctx: Option<PartsContext>)

  function FirstPassOf(f: Formatter, t: int, now: int): (r: Result<FirstPass>)
    ensures r.Success? ==> (r.value.ctx.Some? <==> f.calendar.Some?)
    ensures r.Success? && r.value.ctx.Some? ==> r.value.ctx.value.f == f && r.value.ctx.value.cal == f.calendar.value
    ensures var o := CallOptions(f, DisplayEra(f, t, now));
            r.Success? && f.calendar.Some? ==>
              r.value.ctx.value.bag == BagOf(f.calendar.value, ResolvedLocalCounter(f.clock, ZoneOf(o), t))
    ensures r.Failure? ==> f.calendar.Some? && f.calendar.value.stringFormat == Some("fields")
    ensures var o := CallOptions(f, DisplayEra(f, t, now));
            (f.calendar.None? || f.calendar.value.stringFormat != Some("fields")) ==>
              && r.Success?
              && r.value.parts == f.intl.formatToParts(f.locale, o, t)
              && r.value.options == o
              && (r.value.ctx.Some? ==> r.value.ctx.value.options == o)
    ensures var o := CallOptions(f, DisplayEra(f, t, now));
            r.Success? && f.calendar.Some? && f.calendar.value.stringFormat == Some("fields") ==>
              && r.value.options == o["timeZone" := "UTC"]
              && r.value.ctx.value.options == r.value.options
  {
    var show := DisplayEra(f, t, now);
    var o := CallOptions(f, show);
    var abs := ResolvedLocalCounter(f.clock, ZoneOf(o), t);
    var parts := f.intl.formatToParts(f.locale, o, t);
    var zone := FirstOfKind(parts, "timeZoneName");
    var zoneName := if zone >= 0 then Some(parts[zone].value) else None;
    if f.calendar.None? then Success(FirstPass(parts, o, None))
    else
      var ctx := PartsContext(f, f.calendar.value, o, BagOf(f.calendar.value, abs));
      if f.calendar.value.stringFormat == Some("fields") then
        var fieldsParts :- FieldsParts(ctx, abs, zoneName);
        var o' := o["timeZone" := "UTC"];
        Success(FirstPass(fieldsParts, o', Some(ctx.(options := o'))))
      else Success(FirstPass(parts, o, Some(ctx)))
  }

  /** The first pass with its parts rendered after the calendar's
      partsFormat, when the calendar is custom. */
  function Rendered(f: Formatter, t: int, now: int): Result<FirstPass> {
    var first :- FirstPassOf(f, t, now);
    var rendered :- if first.ctx.Some? then Dispatch(first.ctx.value, first.parts) else Success(first.parts);
    Success(first.(parts := rendered))
  }

  /** formatToParts(date), the date at t and now at now. */
  function Parts(f: Formatter, t: int, now: int): (r: Result<seq<Part>>)
    ensures Rendered(f, t, now).Failure? ==> r.Failure?
    ensures Rendered(f, t, now).Success? ==>
              var rp := Rendered(f, t, now).value;
              var corrected := CorrectWidths(f, rp.options, rp.parts);
              && (r.Failure? <==> !DisplayEra(f, t, now) && |corrected| == 1 && corrected[0].kind == "era")
              && (r.Success? ==> Essential(r.value) == Essential(corrected))
    ensures r.Success? ==>
              var n := CountKind(Rendered(f, t, now).value.parts, "era");
              CountKind(r.value, "era") == (if DisplayEra(f, t, now) || n == 0 then n else n - 1)
  {
    var rendered :- Rendered(f, t, now);
    var corrected := CorrectWidths(f, rendered.options, rendered.parts);
    CorrectWidthsKeepsEras(f, rendered.options, rendered.parts);
    if DisplayEra(f, t, now) then Success(corrected)
    else
      SuppressEraCount(corrected);
      SuppressEra(corrected)
  }

  /** formatToParts, with its passes over the parts done in place. */
  method FormatToParts(f: Formatter, t: int, now: int) returns (r: Result<seq<Part>>)
    ensures r == Parts(f, t, now)
  {
    var first :- FirstPassOf(f, t, now);
    var parts := first.parts;
    if first.ctx.Some? {
      parts :- DispatchInPlace(first.ctx.value, parts);
    }
    parts := CorrectWidthsInPlace(f, first.options, parts);
    if !DisplayEra(f, t, now) {
      parts :- SpliceEra(parts);
    }
    r := Success(parts);
  }

  /** The era suppression, splicing the parts. */
  method SpliceEra(parts: seq<Part>) returns (r: Result<seq<Part>>)
    ensures r == SuppressEra(parts)
  {
    var ps := parts;
    var n := FirstOfKind(ps, "era");
    if n >= 0 {
      var nn := if n > 0 then n - 1 else n + 1;
      if nn >= |ps| {
        return Failure(TypeError("the era part has no neighbour"));
      }
      if ps[nn].kind == "literal" {
        var m := if n < nn then n else nn;
        ps := ps[..m] + ps[m + 2..];
      } else {
        ps := ps[..n] + ps[n + 1..];
      }
    }
    r := Success(ps);
  }

  /** An era that is not to be shown is gone from the parts, when the
      standard database gave at most one era part. */
  lemma HiddenEraIsRemoved(f: Formatter, t: int, now: int)
    requires !DisplayEra(f, t, now)
    requires FirstPassOf(f, t, now).Success? && CountKind(FirstPassOf(f, t, now).value.parts, "era") <= 1
    requires Parts(f, t, now).Success?
    ensures CountKind(Parts(f, t, now).value, "era") == 0
  {
    var first := FirstPassOf(f, t, now).value;
    var rendered := Rendered(f, t, now).value;
    SameKindsSameCount(first.parts, rendered.parts, "era");
    CorrectWidthsKeepsEras(f, rendered.options, rendered.parts);
    SuppressEraRemovesTheEra(CorrectWidths(f, rendered.options, rendered.parts));
  }

  /** The width correction neither adds nor removes an era part. */
  lemma CorrectWidthsKeepsEras(f: Formatter, o: Options, parts: seq<Part>)
    ensures CountKind(CorrectWidths(f, o, parts), "era") == CountKind(parts, "era")
  {
    var corrected := CorrectWidths(f, o, parts);
    assert corrected == corrected[..|parts|] + corrected[|parts|..];
    SameKindsSameCount(parts, corrected[..|parts|], "era");
    CountKindAppend(corrected[..|parts|], corrected[|parts|..], "era");
    if !RightToLeft(f.locale) {
      var suffix := corrected[|parts|..];
      if |suffix| == 1 {
        assert suffix[1..] == [];
      }
    }
  }

  /** The text of parts, concatenated. */
  function Concat(parts: seq<Part>): string {
    if |parts| == 0 then "" else parts[0].value + Concat(parts[1..])
  }

  lemma {:induction false} ConcatAppend(a: seq<Part>, b: seq<Part>)
    ensures Concat(a + b) == Concat(a) + Concat(b)
  {
    if |a| == 0 {
      assert a + b == b;
    } else {
      assert (a + b)[1..] == a[1..] + b;
      ConcatAppend(a[1..], b);
    }
  }

  /** format(date): the values of formatToParts, concatenated: the text
      of every leading run of parts is a prefix of the result. */
  function Format(f: Formatter, t: int, now: int): (r: Result<string>)
    ensures r.Success? <==> Parts(f, t, now).Success?
    ensures r.Success? ==> |r.value| == |Concat(Parts(f, t, now).value)|
    ensures r.Success? ==> forall i :: 0 <= i <= |Parts(f, t, now).value| ==> Concat(Parts(f, t, now).value[..i]) <= r.value
  {
    var parts :- Parts(f, t, now);
    assert forall i :: 0 <= i <= |parts| ==> Concat(parts[..i]) <= Concat(parts) by {
      forall i | 0 <= i <= |parts|
        ensures Concat(parts[..i]) <= Concat(parts)
      {
        assert parts == parts[..i] + parts[i..];
        ConcatAppend(parts[..i], parts[i..]);
      }
    }
    Success(Concat(parts))
  }

  /** The last part survives the era suppression when neither it nor the
      part before it is an era. */
  lemma {:induction false} SuppressEraKeepsLast(parts: seq<Part>)
    requires |parts| >= 2 && parts[|parts| - 1].kind != "era" && parts[|parts| - 2].kind != "era"
    requires SuppressEra(parts).Success?
    ensures var r := SuppressEra(parts).value;
            |r| > 0 && r[|r| - 1] == parts[|parts| - 1]
  {
    var n := FirstOfKind(parts, "era");
    if n >= 0 {
      SuppressEraIsCut(parts);
      CutKeepsLast(parts, n);
    }
  }

  lemma CutKeepsLast(parts: seq<Part>, n: nat)
    requires n + 2 < |parts|
    ensures var r := CutAt(parts, n);
            |r| > 0 && r[|r| - 1] == parts[|parts| - 1]
  {
    var nn := Neighbour(n);
    if parts[nn].kind == "literal" {
      var lo := if n < nn then n else nn;
      LastOfAppend(parts[..lo], parts[lo + 2..]);
    } else {
      LastOfAppend(parts[..n], parts[n + 1..]);
    }
  }

  lemma LastOfAppend(a: seq<Part>, b: seq<Part>)
    requires |b| > 0
    ensures |a + b| > 0 && (a + b)[|a + b| - 1] == b[|b| - 1]
  {
  }

  lemma ConcatLast(parts: seq<Part>)
    requires |parts| > 0
    ensures Concat(parts) == Concat(parts[..|parts| - 1]) + parts[|parts| - 1].value
  {
    var last := parts[|parts| - 1];
    assert parts == parts[..|parts| - 1] + [last];
    ConcatAppend(parts[..|parts| - 1], [last]);
    assert Concat([last]) == last.value + Concat([]);
  }

  /** In a left-to-right locale, when a numeric second ends the rendered
      parts, formatToParts ends with the literal " s" and format's text ends
      with " s", whether the era is suppressed or not. */
  lemma FormatEndsWithSecondSuffix(f: Formatter, t: int, now: int)
    requires Rendered(f, t, now).Success?
    requires var rp := Rendered(f, t, now).value;
             && !RightToLeft(f.locale) && |rp.parts| > 0
             && rp.parts[|rp.parts| - 1].kind == "second" && NumericAsked(rp.options, "second")
    requires Parts(f, t, now).Success?
    ensures var ps := Parts(f, t, now).value;
            |ps| > 0 && ps[|ps| - 1] == Part("literal", " s")
    ensures Format(f, t, now).Success?
    ensures var s := Format(f, t, now).value;
            |s| >= 2 && s[|s| - 2..] == " s"
  {
    var rp := Rendered(f, t, now).value;
    var corrected := CorrectWidths(f, rp.options, rp.parts);
    var len := |rp.parts|;
    assert corrected[len..] == SecondSuffix(rp.options, rp.parts);
    assert |corrected| == len + 1 && corrected[len] == Part("literal", " s");
    assert corrected[len - 1].kind == "second";
    var ps := Parts(f, t, now).value;
    assert ps == if DisplayEra(f, t, now) then corrected else SuppressEra(corrected).value;
    if !DisplayEra(f, t, now) {
      SuppressEraKeepsLast(corrected);
    }
    ConcatLast(ps);
    assert Format(f, t, now).value == Concat(ps);
  }

  /** Renderings that differ only in the calendar's stringFormat. */
  ghost predicate SameButStringFormat(ctx: PartsContext, ctx': PartsContext) {
    && ctx'.options == ctx.options && ctx'.bag == ctx.bag
    && ctx'.cal == ctx.cal.(stringFormat := ctx'.cal.stringFormat)
    && ctx'.f == ctx.f.(calendar := ctx'.f.calendar)
  }

  lemma FormatPartIgnoresStringFormat(ctx: PartsContext, ctx': PartsContext, part: Part)
    requires SameButStringFormat(ctx, ctx')
    ensures FormatPart(ctx, part) == FormatPart(ctx', part)
  {
  }

  lemma {:induction false} DispatchIgnoresStringFormat(ctx: PartsContext, ctx': PartsContext, parts: seq<Part>)
    requires SameButStringFormat(ctx, ctx')
    ensures Dispatch(ctx, parts) == Dispatch(ctx', parts)
  {
    if |parts| > 0 {
      FormatPartIgnoresStringFormat(ctx, ctx', parts[0]);
      DispatchIgnoresStringFormat(ctx, ctx', parts[1..]);
    }
  }

  /** The width correction depends on the formatter only through its
      locale and its number formats. */
  lemma CorrectWidthsOfSameLocale(f: Formatter, g: Formatter, o: Options, parts: seq<Part>)
    requires f.locale == g.locale && f.intl == g.intl
    ensures CorrectWidths(f, o, parts) == CorrectWidths(g, o, parts)
  {
    var a, b := CorrectWidths(f, o, parts), CorrectWidths(g, o, parts);
    if !RightToLeft(f.locale) {
      assert a[|parts|..] == b[|parts|..];
      forall j | 0 <= j < |parts|
        ensures a[j] == b[j]
      {
        assert CorrectedValue(f, o, parts, j) == CorrectedValue(g, o, parts, j);
      }
      assert a == a[..|parts|] + a[|parts|..] && b == b[..|parts|] + b[|parts|..];
      assert a[..|parts|] == b[..|parts|];
    }
  }

  /** A custom calendar's stringFormat "auto" means "built-in": both give
      the same parts for every date. */
  lemma AutoStringFormatIsBuiltIn(f: Formatter, t: int, now: int)
    requires f.calendar.Some? && f.calendar.value.stringFormat == Some("auto")
    ensures Parts(f, t, now) == Parts(f.(calendar := Some(f.calendar.value.(stringFormat := Some("built-in")))), t, now)
  {
    var g := f.(calendar := Some(f.calendar.value.(stringFormat := Some("built-in"))));
    assert DisplayEra(f, t, now) == DisplayEra(g, t, now);
    var first, second := FirstPassOf(f, t, now), FirstPassOf(g, t, now);
    assert first.Success? && second.Success?;
    assert first.value.parts == second.value.parts && first.value.options == second.value.options;
    DispatchIgnoresStringFormat(first.value.ctx.value, second.value.ctx.value, first.value.parts);
    assert Rendered(f, t, now).Success? <==> Rendered(g, t, now).Success?;
    if Rendered(f, t, now).Success? {
      var rf, rg := Rendered(f, t, now).value, Rendered(g, t, now).value;
      assert rf.parts == rg.parts && rf.options == rg.options;
      CorrectWidthsOfSameLocale(f, g, rf.options, rf.parts);
    }
  }
}

=== FILE: format_options.dfy ===
/** The option records of ExtDateTimeFormat and the steps that rewrite them
    during construction. A JavaScript options object is a map from option
    names to their (string) values; assigning undefined to an option, or
    deleting it, removes the key. */
module FormatOptions {
  import opened Base

  type Options = map<string, string>

  /** options[key], undefined when absent. */
  function Get(o: Options, key: string): (v: Option<string>)
    ensures v.Some? <==> key in o
    ensures v.Some? ==> v.value == o[key]
  {
    if key in o then Some(o[key]) else None
  }

  /** options[key] = v, where assigning undefined removes the key. */
  function Put(o: Options, key: string, v: Option<string>): (r: Options)
    ensures Get(r, key) == v
    ensures forall k :: k != key ==> Get(r, k) == Get(o, k)
  {
    if v.Some? then o[key := v.value] else o - {key}
  }

  /** No field and no style shorthand is asked for. */
  predicate NoFieldAsked(o: Options) {
    && "weekday" !in o && "year" !in o && "month" !in o && "day" !in o
    && "hour" !in o && "minute" !in o && "second" !in o
    && "dateStyle" !in o && "timeStyle" !in o
  }

  /** When nothing is asked for, year, month and day are displayed as
      numbers, and no other option is added. */
  function DefaultFields(o: Options): (r: Options)
    ensures !NoFieldAsked(o) ==> r == o
    ensures NoFieldAsked(o) ==> r.Keys == o.Keys + {"year", "month", "day"}
    ensures NoFieldAsked(o) ==> r["year"] == "numeric" && r["month"] == "numeric" && r["day"] == "numeric"
    ensures forall k :: k in o ==> k in r && r[k] == o[k]
  {
    if NoFieldAsked(o) then o["year" := "numeric"]["month" := "numeric"]["day" := "numeric"] else o
  }

  /** The options resolved by the standard database that the formatter
      copies over its own, the absent ones removing the key. */
  function CopyResolved(o: Options, dtf: Options): (r: Options)
    ensures forall k :: k in {"numberingSystem", "timeZone", "timeZoneName", "dayPeriod", "hour12", "hourCycle"} ==>
              Get(r, k) == Get(dtf, k)
    ensures forall k :: k !in {"numberingSystem", "timeZone", "timeZoneName", "dayPeriod", "hour12", "hourCycle"} ==>
              Get(r, k) == Get(o, k)
  {
    var a := Put(o, "numberingSystem", Get(dtf, "numberingSystem"));
    var b := Put(a, "timeZone", Get(dtf, "timeZone"));
    var c := Put(b, "timeZoneName", Get(dtf, "timeZoneName"));
    var d := Put(c, "dayPeriod", Get(dtf, "dayPeriod"));
    var e := Put(d, "hour12", Get(dtf, "hour12"));
    Put(e, "hourCycle", Get(dtf, "hourCycle"))
  }

  /** The eraDisplay option, defaulting to "auto"; "auto" becomes "never"
      when the standard database resolved no year. Any other value than
      "never", "always" and "auto" is a range error. */
  function EraDisplayOf(o: Options, dtf: Options): (r: Result<string>)
    ensures r.Failure? <==> "eraDisplay" in o && o["eraDisplay"] !in {"never", "always", "auto"}
    ensures r.Failure? ==> r.error.RangeError?
    ensures r.Success? ==> r.value in {"never", "always", "auto"}
    ensures r.Success? && r.value == "auto" ==> "year" in dtf
    ensures r.Success? && "eraDisplay" in o && o["eraDisplay"] != "auto" ==> r.value == o["eraDisplay"]
    ensures r.Success? && "year" in dtf ==> r.value == Get(o, "eraDisplay").GetOr("auto")
    ensures Get(o, "eraDisplay").GetOr("auto") == "auto" && "year" !in dtf ==> r == Success("never")
  {
    var v := Get(o, "eraDisplay").GetOr("auto");
    if v !in {"never", "always", "auto"} then Failure(RangeError("Unknown option for displaying era"))
    else if v == "auto" && "year" !in dtf then Success("never")
    else Success(v)
  }

  /** The keys the timeStyle shorthand rewrites. */
  predicate TimeStyleKey(k: string) {
    k in {"timeStyle", "timeZoneName", "hour", "minute", "second", "fractionalSecondDigits"}
  }

  /** Expansion of the timeStyle shorthand: hour, minute and second in two
      digits, the zone name long for "full" and short otherwise; "short"
      drops the second and the zone name, "medium" the zone name. */
  function ExpandTimeStyle(o: Options): (r: Options)
    ensures "timeStyle" !in o ==> r == o
    ensures "timeStyle" in o ==>
              && "timeStyle" !in r && "fractionalSecondDigits" !in r
              && Get(r, "hour") == Some("2-digit") && Get(r, "minute") == Some("2-digit")
              && Get(r, "second") == (if o["timeStyle"] == "short" then None else Some("2-digit"))
              && Get(r, "timeZoneName") == (if o["timeStyle"] in {"short", "medium"} then None
                                            else if o["timeStyle"] == "full" then Some("long")
                                            else Some("short"))
    ensures forall k :: !TimeStyleKey(k) ==> Get(r, k) == Get(o, k)
  {
    if "timeStyle" !in o then o
    else
      var style := o["timeStyle"];
      var a := (o["timeZoneName" := if style == "full" then "long" else "short"]
                 ["hour" := "2-digit"]["minute" := "2-digit"]["second" := "2-digit"]) - {"fractionalSecondDigits"};
      var b := if style == "short" then a - {"second"} - {"timeZoneName"}
               else if style == "medium" then a - {"timeZoneName"}
               else a;
      b - {"timeStyle"}
  }

  /** The keys the dateStyle shorthand rewrites. */
  predicate DateStyleKey(k: string) {
    k in {"dateStyle", "weekday", "day", "month", "year"}
  }

  /** Expansion of the dateStyle shorthand: numeric day, short month and
      numeric year, no weekday; "short" has day and month in two digits,
      "long" a long month, "full" a long weekday and a long month. */
  function ExpandDateStyle(o: Options): (r: Options)
    ensures "dateStyle" !in o ==> r == o
    ensures "dateStyle" in o ==>
              var style := o["dateStyle"];
              && "dateStyle" !in r
              && Get(r, "year") == Some("numeric")
              && Get(r, "day") == Some(if style == "short" then "2-digit" else "numeric")
              && Get(r, "month") == Some(if style == "short" then "2-digit"
                                         else if style in {"long", "full"} then "long"
                                         else "short")
              && Get(r, "weekday") == (if style == "full" then Some("long") else None)
    ensures forall k :: !DateStyleKey(k) ==> Get(r, k) == Get(o, k)
  {
    if "dateStyle" !in o then o
    else
      var style := o["dateStyle"];
      var a := (o - {"weekday"})["day" := "numeric"]["month" := "short"]["year" := "numeric"];
      var b := match style
               case "medium" => a
               case "short" => a["day" := "2-digit"]["month" := "2-digit"]
               case "full" => a["weekday" := "long"]["month" := "long"]
               case "long" => a["month" := "long"]
               case _ => a;
      b - {"dateStyle"}
  }

  /** The 2-digit cascade, in order: a 2-digit day turns a numeric month
      into 2-digit, a 2-digit hour turns a present minute into 2-digit,
      and a 2-digit minute a present second. */
  function Cascade(o: Options): (r: Options)
    ensures r.Keys == o.Keys
    ensures Get(r, "month") == if Get(o, "day") == Some("2-digit") && Get(o, "month") == Some("numeric")
                               then Some("2-digit") else Get(o, "month")
    ensures Get(r, "minute") == if Get(o, "hour") == Some("2-digit") && "minute" in o
                                then Some("2-digit") else Get(o, "minute")
    ensures Get(r, "second") == if "second" in o && (Get(o, "minute") == Some("2-digit") ||
                                                     (Get(o, "hour") == Some("2-digit") && "minute" in o))
                                then Some("2-digit") else Get(o, "second")
    ensures forall k :: k !in {"month", "minute", "second"} ==> Get(r, k) == Get(o, k)
  {
    var a := if Get(o, "day") == Some("2-digit") && Get(o, "month") == Some("numeric") then o["month" := "2-digit"] else o;
    var b := if Get(a, "hour") == Some("2-digit") && "minute" in a then a["minute" := "2-digit"] else a;
    if Get(b, "minute") == Some("2-digit") && "second" in b then b["second" := "2-digit"] else b
  }

  /** The LDML context for month names: "stand-alone" when the month is
      shown without day and year, "format" otherwise. */
  function MonthContext(o: Options): (c: string)
    ensures c in {"format", "stand-alone"}
    ensures c == "stand-alone" <==> "day" !in o && "year" !in o
  {
    if "day" !in o && "year" !in o then "stand-alone" else "format"
  }

  /** The LDML width for month names, when a month is asked for: numeric
      for "numeric" and "2-digit", narrow, abbreviated for "short", wide for
      "long", and "" for any other value. */
  function MonthWidth(o: Options): (w: Option<string>)
    ensures w.Some? <==> "month" in o
    ensures w.Some? ==> w.value in {"numeric", "narrow", "abbreviated", "wide", ""}
    ensures w.Some? ==> (w.value == "numeric" <==> o["month"] in {"numeric", "2-digit"})
    ensures w.Some? ==> (w.value == "" <==> o["month"] !in {"numeric", "2-digit", "narrow", "short", "long"})
    ensures "month" in o && o["month"] == "narrow" ==> w == Some("narrow")
    ensures "month" in o && o["month"] == "short" ==> w == Some("abbreviated")
    ensures "month" in o && o["month"] == "long" ==> w == Some("wide")
  {
    if "month" !in o then None
    else
      match o["month"]
      case "numeric" => Some("numeric")
      case "2-digit" => Some("numeric")
      case "narrow" => Some("narrow")
      case "short" => Some("abbreviated")
      case "long" => Some("wide")
      case _ => Some("")
  }

  /** The LDML context for weekday names: "stand-alone" when no day, month
      or year is shown. */
  function DayContext(o: Options): (c: string)
    ensures c in {"format", "stand-alone"}
    ensures c == "stand-alone" <==> "day" !in o && "month" !in o && "year" !in o
  {
    if "day" !in o && "month" !in o && "year" !in o then "stand-alone" else "format"
  }

  /** A weekday shown in stand-alone context implies a month name shown in
      stand-alone context too. */
  lemma DayContextImpliesMonthContext(o: Options)
    requires DayContext(o) == "stand-alone"
    ensures MonthContext(o) == "stand-alone"
  {
  }

  /** The canvases a calendar with stringFormat "fields" may use: those with
      Roman months. */
  predicate RomanCanvas(canvas: Option<string>) {
    canvas.Some? && canvas.value in {"iso8601", "gregory", "buddhist", "japanese", "roc"}
  }

  /** The lunisolar canvases the formatter refuses. The CLDR name of the
      Hebrew calendar is "hebrew": the name "hebraic" tested here matches no
      CLDR calendar. */
  predicate LunisolarCanvas(canvas: Option<string>) {
    canvas.Some? && canvas.value in {"chinese", "dangi", "hebraic"}
  }

  /** Both shorthands expanded, then the 2-digit cascade: no shorthand key
      is left, a timeStyle always shows hours and minutes in two digits, a
      dateStyle always shows a numeric year, a day and a month, and the
      options no shorthand touches are kept. */
  function ExpandShorthands(o: Options): (r: Options)
    ensures "timeStyle" !in r && "dateStyle" !in r
    ensures "timeStyle" in o ==> Get(r, "hour") == Some("2-digit") && Get(r, "minute") == Some("2-digit")
    ensures "dateStyle" in o ==> Get(r, "year") == Some("numeric") && "day" in r && "month" in r
    ensures "timeStyle" !in o && "dateStyle" !in o ==> r == Cascade(o)
    ensures forall k :: !TimeStyleKey(k) && !DateStyleKey(k) && k != "month" ==> Get(r, k) == Get(o, k)
  {
    var a := ExpandTimeStyle(o);
    var b := ExpandDateStyle(a);
    assert Get(b, "timeStyle") == Get(a, "timeStyle");
    assert Get(b, "hour") == Get(a, "hour") && Get(b, "minute") == Get(a, "minute");
    assert "dateStyle" in o ==> "dateStyle" in a by {
      assert Get(a, "dateStyle") == Get(o, "dateStyle");
    }
    Cascade(b)
  }
}

=== FILE: platform.dfy ===
/** The platform's Date services the core calls but does not implement:
    Gregorian arithmetic in UTC and in the environment's local zone, the
    current instant, ISO string parsing and named time zones. They are
    injected as a record of functions; only their use is modelled. */
module Platform {
  import opened Base

  /** The Gregorian coordinates of a time value as the legacy Date object
      reports them: full year, 0-based month, day of month and time of day. */
  datatype Civil = Civil(year: int, month: int, date: int,
                         hours: int, minutes: int, seconds: int, ms: int)

  datatype Clock = Clock(
    /** Time value of UTC Gregorian coordinates, year taken as a full year
        (the effect of setUTCFullYear and setUTCHours on a Date). */
    utcTime: Civil -> int,
    /** The getUTCFullYear … getUTCMilliseconds accessors. */
    utcCivil: int -> Civil,
    /** Time value of local wall-clock coordinates, year taken as a full year. */
    localTime: Civil -> int,
    /** The getFullYear … getMilliseconds accessors. */
    localCivil: int -> Civil,
    /** toResolvedLocalDate(TZ).valueOf() for a zone other than "UTC" ("" for
        the environment's zone): the
        wall-clock time in that zone read as a UTC time value. */
    zoneTime: (string, int) -> int,
    /** The current instant. */
    now: int,
    /** Date.parse of a date string. */
    parse: string -> int,
    /** new Date(...args) when not every argument is an integer (the
        platform truncates, or yields an invalid date for NaN). */
    looseDate: seq<Number> -> int)

  /** Coordinates that name an existing instant without normalisation. */
  predicate InRange(c: Civil) {
    && 0 <= c.month < 12 && 1 <= c.date <= DaysInMonth(c.year, c.month)
    && 0 <= c.hours < 24 && 0 <= c.minutes < 60 && 0 <= c.seconds < 60
    && 0 <= c.ms < 1000
  }

  predicate LeapYear(y: int) {
    y % 4 == 0 && (y % 100 != 0 || y % 400 == 0)
  }

  function DaysInMonth(y: int, m: int): (n: int)
    ensures 28 <= n <= 31
  {
    if m == 1 then (if LeapYear(y) then 29 else 28)
    else if m in {3, 5, 8, 10} then 30
    else 31
  }

  /** What the model asks of the platform in the UTC zone: the accessors
      report in-range coordinates, and building a time value from in-range
      coordinates gives back the same coordinates. */
  ghost predicate SoundUtc(k: Clock) {
    && (forall t :: InRange(k.utcCivil(t)))
    && (forall c :: InRange(c) ==> k.utcCivil(k.utcTime(c)) == c)
  }

  /** What the model asks of the local-zone accessors: they report in-range
      coordinates. Unlike UTC, a local zone may skip wall-clock times (a
      daylight saving gap), so building a time value from in-range local
      coordinates is not assumed to give them back; see LocalExists. */
  ghost predicate SoundLocal(k: Clock) {
    forall t :: InRange(k.localCivil(t))
  }

  /** The local wall-clock coordinates c exist in the environment's zone:
      the time value built from them reads back as c. They do not when c
      falls in a daylight saving gap, or is out of range and normalised. */
  predicate LocalExists(k: Clock, c: Civil) {
    k.localCivil(k.localTime(c)) == c
  }

  /** The legacy Date constructor's reading of a year argument: 0..99
      stands for 1900..1999. */
  function LegacyYear(y: int): (r: int)
    ensures 0 <= y <= 99 ==> r == 1900 + y
    ensures !(0 <= y <= 99) ==> r == y
  {
    if 0 <= y <= 99 then 1900 + y else y
  }

  /** Date.prototype.setFullYear(y): same local month, day and time of day,
      year replaced. */
  function SetFullYearLocal(k: Clock, t: int, y: int): int {
    var c := k.localCivil(t);
    k.localTime(c.(year := y))
  }

  /** Date.prototype.setUTCFullYear(y): same UTC month, day and time of day,
      year replaced. */
  function SetFullYearUtc(k: Clock, t: int, y: int): int {
    var c := k.utcCivil(t);
    k.utcTime(c.(year := y))
  }
}

/** The standard locale database (Intl.DateTimeFormat and Intl.NumberFormat):
    an opaque, injected service. */
module LocaleDatabase {
  import opened Base

  /** One typed fragment of a formatted date. */
  datatype Part = Part(kind: string, value: string)

  datatype Intl = Intl(
    /** new Intl.DateTimeFormat(locale, options).resolvedOptions() */
    resolvedOptions: (string, map<string, string>) -> map<string, string>,
    /** new Intl.DateTimeFormat(locale, options).formatToParts(t) */
    formatToParts: (string, map<string, string>, int) -> seq<Part>,
    /** new Intl.DateTimeFormat(locale, options).format(t) */
    format: (string, map<string, string>, int) -> string,
    /** new Intl.NumberFormat(locale, {minimumIntegerDigits: n,
        useGrouping: false}).format(x) */
    figure: (string, nat, int) -> string,
    /** The same one-digit number format applied to the text of a part:
        None when that text is not a number. */
    renumber: (string, string) -> Option<string>)
}
